=== FILE: README.md ===
# Thumbs-up/down gesture logging: a verified model of the core

This is a Dafny model of the part of the browser application that turns a
noisy stream of per-frame hand-gesture detections into debounced, committed
trial events. It has three parts:

- **The gesture normaliser** (`src/gesture.js`), in module `Gesture`. A
  first-match-wins classifier that maps a recognizer category (name, score) and
  caller options to a label (`Up`, `Down`, `Neutral`), an acceptance flag and
  the reason. The reasons are missing name, deny list, below threshold, not
  mapped and accepted.
- **The feature accumulator** (`src/features.js`), in module `Features`. Class
  `FeatureAccumulator` keeps a time-ordered buffer of thumb samples. It appends
  and prunes the buffer in place, and summarises a trailing window into
  amplitude, jitter, stability and a zero-crossing repetition count (method
  `CountRepetitions`, a loop).
- **The stabilisation engine** (`src/app.js`):
  - `AppConfig` holds the configuration defaults, `mergeConfig`, the
    `max_fps`/`maxFps` alias and the repair pass after the fetch.
  - `Engine` holds one call of `updateLiveState`, including the state part of
    `handleCommit`, as the pure function `Step` over a `Live` record. It also
    has lemmas over single steps and over whole runs (`States`).
  - `App` is a class whose fields mirror the application's `state` object.
    Its methods do what the source does, field by field:
    - `UpdateLiveState`, `HandleCommit` and `BuildTrialPacket`;
    - `PickTopGesture`, a loop;
    - `HandleRecognizerResult`, the per-frame adapter;
    - `LoadConfig`, the part after the fetch.

    Each method's postcondition ties the new fields to `Engine.Step`, to
    `PacketOf` and to the accumulator's specification functions.

`Wrappers` holds `Option`. `None` stands for JavaScript's `null`/`undefined`.
`Detection` holds the per-hand record the tracker hands to the application.

Modelling conventions:
- **Numbers are reals.**
  - `Math.round(x)` is `floor(x + 0.5)`.
  - `toFixed(4)` rounds half away from zero to four decimals, on exact reals.
  - `Math.hypot`, `Math.sqrt` and the stability division `jitter / amplitude`
    are parameters of type `FloatOps`.
  - `SignPreserving` states the only facts about them that the bounds use:
    a square root is never negative, and a quotient of a non-negative number
    by a positive one is never negative.
- **Truthiness is modelled exactly.** JavaScript treats an "unset" timestamp
  by truthiness (`!state.resetSince`, `!state.noGestureSince`,
  `rtOrigin ? … : null`), so a timestamp of exactly 0 counts as unset.
  `Engine.Truthy` and `ReactionTime` keep that quirk. Lemmas that depend on it
  say so with a positive-time precondition (`NamelessFramesShowNoHand`).
- **The clock is a parameter.** `performance.now()` is replaced by the `now`
  argument.
- **Numeric JSON settings use `AppConfig.Setting`**, which has three cases:
  a number, `null`, or any other JSON value together with the number
  JavaScript's coercion makes of it. The repair pass uses `Number.isFinite`,
  which never coerces. `getDisplayLabel` compares against the unrepaired
  `empty_gesture_timeout_ms`, which does coerce.

## Model

| member | source | states |
|---|---|---|
| Gesture.MapCategoryToLabel | src/gesture.js:15-18 | `Up` exactly for `Thumb_Up`, `Down` exactly for `Thumb_Down`, `Neutral` for every other name, including a missing or empty one |
| Gesture.ExtractTopCategory | src/gesture.js:20-26 | no category when there are no gesture lists or the first list is empty; otherwise the first category of the first list |
| Gesture.DenySet | src/gesture.js:32 | the rejected names are exactly the built-in set together with the caller's list: every name of either is rejected and no other name is |
| Gesture.EffectiveMinScore | src/gesture.js:40-44 | the threshold is the caller's per-category value if there is one. Otherwise it is the built-in per-category value (0.65 for both thumbs), then the caller's global value, then 0.6 |
| Gesture.NormalizeGesture | src/gesture.js:28-61 | each reason holds exactly when its rule is the first to match, in the order missing name, deny list, below threshold, not mapped. It is accepted exactly when the reason is accepted, which is exactly when the label is not neutral; an accepted label is the mapped one. The score passes through (0 when absent), the name is echoed unless missing, and `minScore` is present exactly on below-threshold events and equals the threshold applied |
| Gesture.AcceptanceMonotoneInScore | src/gesture.js:45-60 | raising the score of an accepted category gives the same event with the new score |
| Gesture.ThresholdIsInclusive | src/gesture.js:44-60 | for any name that is not denied and any options, a score exactly at the effective threshold is never below threshold, and is accepted exactly when the name maps to a thumb label; every lower score is below threshold |
| Gesture.CategoryOverrideBeatsGlobal | src/gesture.js:44 | a caller's per-category threshold wins over a stricter global one |
| Features.DropBefore | src/features.js:36-41 | pruning never lengthens the buffer, and the first surviving sample is not older than the bound |
| Features.DropBeforeDropsOldPrefix | src/features.js:38-40 | pruning leaves a suffix of the buffer, and every sample it removed is older than the bound |
| Features.InWindow | src/features.js:51 | every sample in the window is at or after its start |
| Features.InWindowMembers | src/features.js:51 | a sample is in the window exactly when it is in the buffer and at or after the start |
| Features.InWindowIgnoresPruned | src/features.js:48-51 | pruning at the window start before filtering does not change the window |
| Features.PrunedSortedIsInWindow | src/features.js:36-41 | pruning a time-ordered buffer leaves it time-ordered with nothing older than the bound |
| Features.CaptureKeepsNewest | src/features.js:26-33 | with a non-negative window, the sample just pushed survives its own prune as the newest |
| Features.AppendKeepsSorted | src/features.js:26-31 | pushing a sample no older than the newest keeps the buffer time-ordered |
| Features.CaptureKeepsWindowBounded | src/features.js:26-33 | push-then-prune on an ordered buffer with a non-decreasing timestamp leaves it ordered and within the window before the newest sample |
| Features.PushThenPrune | src/features.js:26-40 | appending a sample and pruning at its timestamp minus the window drops exactly a leading run of older samples (the first kept one is not older), keeps the rest in order, keeps the new sample when the window is not negative, and keeps an ordered buffer ordered and inside the window |
| Features.Distances | src/features.js:56 | one distance per windowed sample, in order |
| Features.MaximumIsGreatest | src/features.js:57 | `Math.max` of the distances is one of them and no smaller than any |
| Features.MinimumIsLeast | src/features.js:57 | `Math.min` of the distances is one of them and no greater than any |
| Features.RangeNonNegative | src/features.js:57 | the amplitude before rounding, max − min, is never negative |
| Features.Variance | src/features.js:58-59 | the population variance is never negative |
| Features.Jitter | src/features.js:60 | with a sign-preserving square root, jitter is never negative |
| Features.Stability | src/features.js:61 | stability is never negative; it is 0 when the amplitude is not positive, and at most 1 for a positive amplitude and non-negative jitter with a sign-preserving division |
| Features.ToFixed4 | src/features.js:66-68 | rounding to four decimals moves a value by at most 0.00005, keeps 0 at 0, keeps non-negative values non-negative and keeps values in [0, 1] within [0, 1] |
| Features.Statistics | src/features.js:56-70 | the rounded amplitude and stability are never negative; both are 0 when all distances are equal; the repetition count is carried unchanged |
| Features.ThumbDeltas | src/features.js:87-88 | one vertical thumb step per pair of consecutive samples, each the later `thumbY` minus the earlier |
| Features.RepetitionCountBound | src/features.js:87-91 | the first step can never count, so the count is below the number of steps |
| Features.FlipIsReversal | src/features.js:89 | a step counts exactly when it crosses the 0.02 noise floor in the direction opposite to the last non-zero step before it, which must itself cross the floor |
| Features.ZeroStepsAreInvisible | src/features.js:92 | zero steps do not update the previous step: deleting them changes neither the count nor the last non-zero step |
| Features.Repetitions | src/features.js:84 | fewer than 3 samples count 0; n samples count at most n − 2 |
| Features.CountRepetitions | src/features.js:83-95 | the loop's count equals `Repetitions` of its samples |
| Features.Summary | src/features.js:43-71 | an empty window has all-zero features; the repetition count is that of the window |
| Features.ZeroFeatures | src/features.js:74-81 | all four features of an empty window are 0 (stated through `Features.Summary`, whose empty-window case is `ZeroFeatures`, and `Features.FeatureAccumulator.Summarize`) |
| Features.SummaryNonNegative | src/features.js:56-68 | amplitude and stability are never negative; a hand whose distance does not vary has amplitude and stability 0 |
| Features.SummaryAmplitudeIsRange | src/features.js:57-66 | the amplitude is the window's distance range, within the 0.00005 of `toFixed(4)` |
| Features.SummaryJitterBounds | src/features.js:60-68 | with sign-preserving primitives, jitter is never negative and stability never exceeds 1 |
| Features.FirstWithLandmarks | src/features.js:13 | the first hand with any landmarks: none exactly when no hand has landmarks; otherwise every earlier hand has none |
| Features.SampleFrom | src/features.js:13-31 | a frame yields a sample exactly when some hand has landmarks and the first such hand has both wrist (0) and thumb tip (4). The sample has the given timestamp, the tip's and wrist's `y`, and the `hypot` of the tip-minus-wrist deltas, where a missing `z` counts as 0 |
| Features.Captured | src/features.js:12-34 | a frame without a sample leaves the buffer unchanged. A frame with one appends it and drops exactly the leading run of samples older than its timestamp minus the window: every dropped sample is older and the first kept one is not. The rest stay in order. The new sample is newest whenever the window is not negative, and an ordered buffer with a timestamp no older than its newest sample stays ordered with nothing older than the window |
| Features.FeatureAccumulator.constructor | src/features.js:3-6 | an empty buffer with the given window |
| Features.FeatureAccumulator.SetWindow | src/features.js:8-10 | replaces the window, keeps the buffer |
| Features.FeatureAccumulator.Capture | src/features.js:12-34 | the new buffer is `Captured` of the old one; the window is unchanged |
| Features.FeatureAccumulator.Prune | src/features.js:36-41 | the shifting loop leaves exactly `DropBefore` of the old buffer |
| Features.FeatureAccumulator.Summarize | src/features.js:43-71 | an empty buffer gives all-zero features. Otherwise the start is the given one, or else the newest timestamp minus the window; the buffer is pruned there and the result is `Summary` of the old buffer's samples at or after the start |
| Features.SummarizeWindow | src/features.js:52-70 | the statistics computed with the counting loop equal `Summary` of the window |
| AppConfig.Setting.Coerced | src/app.js:187 | the number a relational comparison sees: a finite number is itself, `null` is 0, and any other JSON value is its `ToNumber` conversion, none when that is NaN |
| AppConfig.MergeConfig | src/app.js:120-131 | no override returns the base; every top-level key the override carries replaces the base's, and every key it lacks keeps the base's; `features.window_ms` is replaced only when the override's `features` carries it; the per-category thresholds are the union with the override's values winning; a per-category name only the base has keeps the base's value |
| AppConfig.MergeEmptyIsIdentity | src/app.js:120-131 | merging a payload with no keys changes nothing |
| AppConfig.Settle | src/app.js:151-166 | every numeric slot that is not a finite number takes its default; a deny list that is not an array becomes empty; the built-in per-category thresholds are merged under the configured ones; `empty_gesture_timeout_ms` and the identifiers pass through unrepaired; a thumb category the configuration lacks gets its built-in 0.65 |
| AppConfig.LoadConfig | src/app.js:133-166 | a failed fetch, bad status or non-object body gives the settled defaults |
| AppConfig.DefaultsWithoutPayload | src/app.js:7-35 | without a payload every setting has its documented default (900, 120, 250, 180, 0.35, 30, 0.6, 1200, empty deny list, 0.65 per thumb, 1800, no identifiers) |
| AppConfig.PayloadNumbersWin | src/app.js:138-162 | a payload setting is used exactly when it is a finite number; otherwise the default applies |
| AppConfig.MaxFpsPrecedence | src/app.js:139-142 | a finite `max_fps` wins; a missing or `null` one defers to a finite `maxFps`; a non-numeric `max_fps` leaves 30 |
| AppConfig.MaxFpsOverride | src/app.js:139 | `payload.max_fps ?? payload.maxFps`; its effect on the loaded cap is stated by `AppConfig.MaxFpsPrecedence` |
| AppConfig.ThumbThresholdsAlwaysPresent | src/app.js:163-166 | both thumb categories always have a threshold after loading, and a payload's per-category value wins |
| AppConfig.WindowFromFeatures | src/app.js:151-154 | the sample window is a finite `features.window_ms` from the payload, else 1200 |
| AppConfig.EmptyGestureTimeoutUnrepaired | src/app.js:151-166 | `empty_gesture_timeout_ms` is the payload's value as it is, or 1800 when absent |
| Engine.Mix | src/app.js:175-178 | a non-finite current value is replaced by the next; smoothing 0 keeps the current value, smoothing 1 takes the next |
| Engine.MixBetween | src/app.js:175-178 | with smoothing in [0, 1] the blend lies between the current and the next value |
| Engine.HoldMs | src/app.js:356-362 | the hold timer is never negative when the candidate started no later than now |
| Engine.Cooldown | src/app.js:364-374 | outside the cooldown nothing changes. A non-neutral candidate keeps the cooldown and clears the neutral start. The cooldown ends only for a neutral candidate, exactly when `reset_ms` has passed since the neutral start (recorded, else now) |
| Engine.Step | src/app.js:302-381 | no commit during the cooldown. A commit enters the cooldown with no neutral start and hold 0, for an accepted non-neutral candidate at least `stable_ms` old, and records it. Without a commit the last commit is kept. The frame takes the entry's label. A candidate that changes label takes the entry's and the frame's start after the grace dwell (neutral for a soft reason) or the debounce dwell. Leaving the cooldown needs a neutral candidate. Clocks not after now stay so, with a non-negative hold |
| Engine.FrameFollowsEntry | src/app.js:309-329 | a new label restarts the frame's clock at now with the entry's score; the same label keeps the start and moves the score toward the entry's, never past it for smoothing in [0, 1] |
| Engine.SmoothFrame | src/app.js:309-329 | the frame sub-step; what it does to the frame is stated by `Engine.FrameFollowsEntry` |
| Engine.AdvanceCandidate | src/app.js:331-354 | the candidate sub-step with its two dwell thresholds; stated by `Engine.DwellDecidesSwitch` for a different label and `Engine.SameLabelRefreshesCandidate` for the same one |
| Engine.NextNoGestureSince | src/app.js:303-307 | the empty-gesture clock sub-step; stated by `Engine.NoGestureClock` |
| Engine.NoGestureClock | src/app.js:303-307 | a named entry clears the empty-gesture clock, the first nameless entry starts it at now, later nameless entries keep it; a recorded start of 0 is falsy and restarts |
| Engine.DwellDecidesSwitch | src/app.js:331-349 | a candidate switches to a different label exactly when the frame with that label has lasted `score_grace_ms` (a drop to neutral for below-threshold, missing-name, deny-list or no-gesture) or else `debounce_ms`; the switch takes the frame's start, the entry's score, name and acceptance, and otherwise nothing changes |
| Engine.SameLabelRefreshesCandidate | src/app.js:350-354 | on the candidate's own label its label and start are kept, name and acceptance are copied, and the score moves toward the entry's |
| Engine.HoldTracksCandidate | src/app.js:356-362 | without a commit the hold is 0 for a neutral candidate or a frame begun in the cooldown, else the candidate's age; a commit resets it to 0 |
| Engine.CommitFiresExactly | src/app.js:376-380 | a frame commits exactly when it began outside the cooldown and its candidate is accepted, not neutral and at least `stable_ms` old; the commit records the label at now |
| Engine.ShouldCommit | src/app.js:376-377 | the commit condition; that a frame commits exactly when it holds is stated by `Engine.CommitFiresExactly` |
| Engine.DisplayLabel | src/app.js:186-191 | "no hand" exactly when a truthy empty-gesture start lies more than the timeout before now (compared the JavaScript way); otherwise the candidate's label |
| Engine.NamedFrameShowsCandidate | src/app.js:303-304 | after a frame with a name the display shows the candidate's label |
| Engine.NamelessFramesShowNoHand | src/app.js:305-307 | with a numeric timeout and positive times, a nameless frame starts the empty-gesture clock and the display shows "no hand" once the timeout has passed |
| Engine.States | src/app.js:302-381 | a run has one state per frame plus the initial one, which it starts from |
| Engine.StatesStep | src/app.js:302-381 | each state of a run is `Step` of the previous state on that frame |
| Engine.HoldNeverNegative | src/app.js:356-362 | with non-decreasing frame times starting no earlier than the state's clocks, the hold timer is never negative anywhere in a run |
| Engine.ClocksBehind | src/app.js:309-362 | in such a run each state's frame and candidate starts lie no later than the next frame time |
| Engine.CooldownStep | src/app.js:364-374 | a frame in the cooldown never commits. A non-neutral candidate clears the neutral start. A neutral one ends the cooldown once `reset_ms` has passed since the neutral start, and otherwise records that start |
| Engine.CooldownProgress | src/app.js:364-374 | after a commit the cooldown is either still pending, with any neutral start at a frame since which the candidate stayed neutral, or has completed through a continuous neutral stretch lasting `reset_ms` |
| Engine.CooldownBetweenCommits | src/app.js:225-238 | between any two commits of a run there is a stretch of frames, lasting at least `reset_ms`, in which the candidate was neutral throughout |
| Engine.ScoreDoesNotSteerLabels | src/app.js:302-381 | entries differing only in score give the same commit decision, candidate label and start, cooldown flag and hold |
| App.TopIsFirstMaximum | src/app.js:207-223 | no top gesture exactly when no hand has a non-empty category and a numeric score. Otherwise the top is such a hand, with a score strictly above every earlier such hand's and no lower than any later one's (the first wins ties) |
| App.Top | src/app.js:207-223 | the left-to-right scan keeping the best eligible hand, replacing it only on a strictly higher score; its meaning, the first eligible hand of highest score, is stated by `App.TopIsFirstMaximum` |
| App.PickTopGesture | src/app.js:207-223 | the loop's result equals `Top` of the hands |
| App.EntryFor | src/app.js:390-419 | without a top gesture, a neutral nameless entry with score 0 and reason no-gesture. Otherwise the normaliser's label, acceptance and reason, with the top gesture's own name and score |
| App.EntryAcceptance | src/app.js:404-419 | an entry is accepted exactly when its label is up or down. The label matches the thumb category's name. An accepted name is outside the deny list and scored at least its threshold |
| App.Round | src/app.js:249-250 | `Math.round` lands within half a unit of its argument |
| App.RoundNonNegative | src/app.js:249-250 | `Math.max(0, Math.round(x))` is never negative, is within half a unit of a non-negative x, and is 0 for every x below 0.5 |
| App.ReactionTime | src/app.js:248-261 | the reaction time is present exactly when its origin is truthy (`probeShownAt`, else the gesture's start), and is then the rounded, clamped time from the origin to the commit |
| App.AfterPacket | src/app.js:252-275 | the trial number goes up by one, the probe fields are cleared, the identifiers are kept |
| App.PacketFields | src/app.js:245-277 | a packet carries the next trial number and the identifiers falling back to the configured ones. It has the gesture with its start and end, the reaction time (within half a unit of the time since a probe shown before the commit), a non-negative whole hold within half a unit of a non-negative hold, the window's features, and the probe fields of the trial it closes |
| App.PacketOf | src/app.js:253-270 | the packet literal; what each of its fields holds is stated by `App.PacketFields` |
| App.InitialLive | src/app.js:84-104 | the start-up state has a neutral candidate, no cooldown and hold 0 |
| App.App.constructor | src/app.js:84-118 | the fields start as the `state` object does: neutral frame and candidate at now, default configuration, trial 0, an empty 1200 ms accumulator |
| App.App.LoadConfig | src/app.js:133-172 | installs the loaded configuration and a fresh empty accumulator with its window, and copies its identifiers into the trial metadata; the live state is untouched |
| App.App.BuildTrialPacket | src/app.js:245-278 | the packet is `PacketOf` the old metadata and the features of the window ending at `end`; the buffer is pruned to that window; the metadata becomes `AfterPacket` of the old |
| App.App.HandleCommit | src/app.js:225-243 | builds the packet from the candidate's label and start and the current hold, then enters the cooldown with no neutral start and hold 0, recording the commit |
| App.App.UpdateLiveState | src/app.js:302-381 | the new live fields are `Step` of the old on this entry. A packet is returned exactly when `Step` fires, and it is built from the new candidate's label, start and age. The metadata and buffer change only when a packet is built |
| App.App.AdvanceFrame | src/app.js:303-354 | the empty-gesture clock, the frame and the candidate become the first three sub-steps of `Step` |
| App.App.AdvanceTimers | src/app.js:356-374 | the hold timer and the cooldown become the next two sub-steps of `Step` |
| App.App.HandleRecognizerResult | src/app.js:383-423 | captures the frame's sample, then advances the live state on the entry of the strongest hand; when a commit fires, the packet summarises the window of the buffer including this frame's sample |
| App.App.DisplayLabel | src/app.js:186-191 | "no hand" exactly when the recorded empty-gesture start is truthy and lies more than the configured timeout, compared the JavaScript way, before now; otherwise the candidate's label |
| App.HeldGestureFires | src/app.js:376-380 | an accepted gesture held past `stable_ms` outside the cooldown, with frame and candidate already on it, commits on the next frame |

## Left out

- `src/tracker.js`: camera access, recognizer loading, frame scheduling and frame-rate throttling are I/O and foreign calls. Its `normalizeResult` only reshapes library output; `Detection.Hand` is the shape it delivers.
- `src/hud.js`: canvas drawing and label formatting.
- Rendering in `src/app.js`: `ringShow`, `ringHide`, `ringTick`, `flashStars`, `updateStatusPanel`, `renderHUD` and the `hud.drawHands` call are DOM work with no effect on the state.
- `sendLog` and the fetch in `loadConfig`: network I/O. `App.LoadConfig` takes the parsed payload, or `None` for a failed request, a bad status or a body that is not an object.
- `simulate`, `wireSim` and `main`: keyboard, button and start-up wiring.
- `handleRecognizerError` and `handleRecognizerStatus`: they only write status text.
- `updateTrialMeta`: set from the UI, outside the per-frame path. Its effect on `probeShownAt` enters the model through `TrialMeta`.
- `performance.now()`: every time is a parameter (`now`, `timestamp`).
- Floating point: `Math.hypot`, `Math.sqrt` and the division inside stability are the parameters in `FloatOps`. Subtraction, the mean and the variance are exact real arithmetic, not IEEE doubles. `toFixed(4)` is modelled as exact decimal rounding, not on the binary value.
- NaN and infinite scores or landmark coordinates: a hand whose score is not a finite number is `score = None`; other non-finite values are not represented.
- The `video` and `backend` configuration sections and their merge (`src/app.js:123`, `129`): they configure the camera and the log endpoint only.
- Non-string identifiers, non-string deny-list entries and non-numeric per-category thresholds in a payload: identifiers are strings or `null`, deny entries strings, thresholds reals.
- A payload literal that overflows to -Infinity in `empty_gesture_timeout_ms`: `AppConfig.Setting` represents +Infinity as `Other(None)`, but has no value that compares below every number, so the "no hand" display for such a timeout is not modelled.
- Keys inherited from `Object.prototype` (a category named `constructor`, say): names are plain dictionary keys.
- The `?? now` and `?? entry.score` fallbacks at `src/app.js:312-313`: the frame's start and score are always set, so these never apply.
- The default window of `new FeatureAccumulator()` (`src/features.js:3`): every caller passes a window, so the constructor takes it as a required argument.
- The check that `features` exists (`src/app.js:151`): after `mergeConfig` it always does.
- Engine.HoldMs: states only non-negativity; the exact value of the hold is stated by `Engine.HoldTracksCandidate`.
- AppConfig.LoadConfig: its own contract covers only the no-payload case; the payload cases are stated by the lemmas beside it (`PayloadNumbersWin`, `MaxFpsPrecedence`, `WindowFromFeatures`, `ThumbThresholdsAlwaysPresent`, `EmptyGestureTimeoutUnrepaired`).

=== FILE: app.dfy ===
/**
 * The application state of src/app.js: the per-frame adapter that picks the
 * strongest gesture among the detected hands, normalises it into an entry
 * and advances the stabilisation state, and the commit path that builds a
 * trial packet from the feature accumulator and the trial metadata.
 */
module App {
  import opened Wrappers
  import opened Detection
  import opened Gesture
  import opened AppConfig
  import opened Features
  import opened Engine

  // ---------------------------------------------------------------------------
  // Picking the strongest hand

  /** The strongest hand's gesture. */
  datatype TopGesture = TopGesture(categoryName: string, score: real, handedness: Option<string>)

  /** A hand competes when it has a non-empty category and a numeric score. */
  predicate Eligible(h: Hand) {
    Present(h.category) && h.score.Some?
  }

  function TopOf(h: Hand): TopGesture
    requires Eligible(h)
  {
    TopGesture(h.category.value, h.score.value, h.handedness)
  }

  /** The left-to-right scan of `pickTopGesture`: a later hand replaces the best only with a strictly higher score. */
  function Top(hands: seq<Hand>): (best: Option<TopGesture>)
    decreases |hands|
  {
    if hands == [] then None
    else
      var best := Top(hands[..|hands| - 1]);
      var h := hands[|hands| - 1];
      if !Eligible(h) then best
      else if best.None? || h.score.value > best.value.score then Some(TopOf(h))
      else best
  }

  /**
   * The scan's result is the first eligible hand with the highest score:
   * none exactly when no hand is eligible, and otherwise hand `k`, which
   * beats every eligible hand before it and is not beaten by any after it.
   */
  lemma {:induction false} TopIsFirstMaximum(hands: seq<Hand>) returns (k: nat)
    ensures Top(hands).None? <==> forall j :: 0 <= j < |hands| ==> !Eligible(hands[j])
    ensures Top(hands).Some? ==>
              && k < |hands| && Eligible(hands[k]) && Top(hands) == Some(TopOf(hands[k]))
              && (forall j :: 0 <= j < k && Eligible(hands[j]) ==> hands[j].score.value < hands[k].score.value)
              && (forall j :: k < j < |hands| && Eligible(hands[j]) ==> hands[j].score.value <= hands[k].score.value)
  {
    if hands == [] {
      return 0;
    }
    var n := |hands| - 1;
    var init := hands[..n];
    var h := hands[n];
    k := TopIsFirstMaximum(init);
    assert forall j :: 0 <= j < n ==> init[j] == hands[j];
    if Eligible(h) && (Top(init).None? || h.score.value > Top(init).value.score) {
      k := n;
    }
  }

  /** `pickTopGesture`: one pass over the hands keeping the best so far. */
  method PickTopGesture(hands: seq<Hand>) returns (best: Option<TopGesture>)
    ensures best == Top(hands)
  {
    if |hands| == 0 {
      return None;
    }
    best := None;
    for i := 0 to |hands|
      invariant best == Top(hands[..i])
    {
      var hand := hands[i];
      assert hands[..i + 1][..i] == hands[..i];
      if Present(hand.category) && hand.score.Some? {
        var score := hand.score.value;
        if best.None? || score > best.value.score {
          best := Some(TopGesture(hand.category.value, score, hand.handedness));
        }
      }
    }
    assert hands[..|hands|] == hands;
  }

  // ---------------------------------------------------------------------------
  // The per-frame entry

  /** The normaliser's options drawn from the configuration. */
  function OptionsOf(cfg: Config): Options {
    Options(Some(cfg.minScore), Some(cfg.minScoreByCategory), Some(cfg.denyList))
  }

  /**
   * The entry `handleRecognizerResult` builds: a neutral "no gesture" entry
   * without a top gesture, else the normalised label, acceptance and reason
   * with the top gesture's raw name and score.
   */
  function EntryFor(top: Option<TopGesture>, cfg: Config): (e: Entry)
    ensures top.None? ==> e == Entry(Neutral, None, 0.0, false, NoGesture)
    ensures top.Some? ==>
              var n := NormalizeGesture(Some(Category(Some(top.value.categoryName), Some(top.value.score))), OptionsOf(cfg));
              && e.name == Some(top.value.categoryName) && e.score == top.value.score
              && e.gesture == n.gesture && e.accepted == n.accepted && e.reason == n.reason
  {
    if top.None? then Entry(Neutral, None, 0.0, false, NoGesture)
    else
      var t := top.value;
      var normalized := NormalizeGesture(Some(Category(Some(t.categoryName), Some(t.score))), OptionsOf(cfg));
      Entry(normalized.gesture, Some(normalized.name.GetOr(t.categoryName)), t.score, normalized.accepted, normalized.reason)
  }

  /**
   * An entry is accepted exactly when it carries an up or down label, and
   * then its name is the matching thumb category, outside the deny list and
   * scored at least at its threshold.
   */
  lemma EntryAcceptance(top: Option<TopGesture>, cfg: Config)
    ensures var e := EntryFor(top, cfg);
            && (e.accepted <==> e.gesture != Neutral)
            && (e.gesture == Up ==> e.name == Some("Thumb_Up"))
            && (e.gesture == Down ==> e.name == Some("Thumb_Down"))
            && (e.accepted ==>
                  && top.Some?
                  && top.value.categoryName !in DenySet(OptionsOf(cfg))
                  && top.value.score >= EffectiveMinScore(top.value.categoryName, OptionsOf(cfg)))
  {
  }

  // ---------------------------------------------------------------------------
  // Trial packets

  /** The per-trial metadata; the probe fields describe the current trial only. */
  datatype TrialMeta = TrialMeta(
    trial: nat,
    participantId: Option<string>,
    sessionId: Option<string>,
    itemId: Option<string>,
    probeShown: bool,
    probeShownAt: Option<real>,
    implicitConf: Option<real>,
    explicitConf: Option<real>)

  const InitialMeta: TrialMeta := TrialMeta(0, None, None, None, false, None, None, None)

  datatype TrialPacket = TrialPacket(
    participantId: Option<string>,
    sessionId: Option<string>,
    trial: nat,
    itemId: Option<string>,
    gesture: Label,
    tStart: real,
    tEnd: real,
    rtMs: Option<int>,
    holdMs: int,
    amplitude: real,
    jitter: real,
    stability: real,
    repetitions: nat,
    implicitConf: Option<real>,
    probeShown: bool,
    explicitConf: Option<real>)

  /** `Math.round`: the nearest integer, halves rounded up. */
  function Round(x: real): (n: int)
    ensures x - 0.5 < n as real <= x + 0.5
  {
    (x + 0.5).Floor
  }

  /** `Math.max(0, Math.round(x))`. */
  function RoundNonNegative(x: real): (n: int)
    ensures n >= 0
    ensures x >= 0.0 ==> x - 0.5 < n as real <= x + 0.5
    ensures x < 0.5 ==> n == 0
  {
    var r := Round(x);
    if r > 0 then r else 0
  }

  /**
   * The reaction time: from the probe's display, else from the gesture's
   * start, to the commit, rounded and clamped at 0; absent when that origin
   * is 0, which JavaScript treats as unset.
   */
  function ReactionTime(meta: TrialMeta, start: real, end: real): (rt: Option<int>)
    ensures rt.Some? <==> meta.probeShownAt.GetOr(start) != 0.0
    ensures rt.Some? ==> rt.value == RoundNonNegative(end - meta.probeShownAt.GetOr(start)) && rt.value >= 0
  {
    var origin := meta.probeShownAt.GetOr(start);
    if origin != 0.0 then Some(RoundNonNegative(end - origin)) else None
  }

  /** The metadata after a packet: the next trial number, the probe fields cleared. */
  function AfterPacket(meta: TrialMeta): (m: TrialMeta)
    ensures m.trial == meta.trial + 1
    ensures !m.probeShown && m.probeShownAt.None? && m.implicitConf.None? && m.explicitConf.None?
    ensures (m.participantId, m.sessionId, m.itemId) == (meta.participantId, meta.sessionId, meta.itemId)
  {
    meta.(trial := meta.trial + 1, probeShown := false, probeShownAt := None, implicitConf := None, explicitConf := None)
  }

  /** The packet `buildTrialPacket` returns, given the features of the window before `end`. */
  function PacketOf(meta: TrialMeta, cfg: Config, gesture: Label, start: real, end: real, holdMs: real, f: FeatureSummary)
    : TrialPacket
  {
    TrialPacket(
      if meta.participantId.Some? then meta.participantId else cfg.participantId,
      if meta.sessionId.Some? then meta.sessionId else cfg.sessionId,
      meta.trial + 1,
      if meta.itemId.Some? then meta.itemId else cfg.itemId,
      gesture, start, end,
      ReactionTime(meta, start, end),
      RoundNonNegative(holdMs),
      f.amplitude, f.jitter, f.stability, f.repetitions,
      meta.implicitConf, meta.probeShown, meta.explicitConf)
  }

  /**
   * What a packet reports: the next trial number, the metadata identifiers
   * falling back to the configured ones, the gesture and its span, the
   * reaction time, a non-negative whole hold time that rounds the gesture's
   * hold, the window's features, and the probe fields of the trial it closes.
   */
  lemma PacketFields(meta: TrialMeta, cfg: Config, gesture: Label, start: real, end: real, holdMs: real, f: FeatureSummary)
    ensures var p := PacketOf(meta, cfg, gesture, start, end, holdMs, f);
            && p.trial == meta.trial + 1 && p.trial > 0
            && p.participantId == (if meta.participantId.Some? then meta.participantId else cfg.participantId)
            && p.sessionId == (if meta.sessionId.Some? then meta.sessionId else cfg.sessionId)
            && p.itemId == (if meta.itemId.Some? then meta.itemId else cfg.itemId)
            && p.gesture == gesture && p.tStart == start && p.tEnd == end
            && (p.rtMs.Some? <==> meta.probeShownAt.GetOr(start) != 0.0)
            && (p.rtMs.Some? ==> p.rtMs.value >= 0)
            && (meta.probeShownAt.Some? && meta.probeShownAt.value != 0.0 && end >= meta.probeShownAt.value ==>
                  p.rtMs.Some? && end - meta.probeShownAt.value - 0.5 < p.rtMs.value as real <= end - meta.probeShownAt.value + 0.5)
            && p.holdMs >= 0 && (holdMs >= 0.0 ==> holdMs - 0.5 < p.holdMs as real <= holdMs + 0.5)
            && (p.amplitude, p.jitter, p.stability, p.repetitions) == (f.amplitude, f.jitter, f.stability, f.repetitions)
            && (p.implicitConf, p.probeShown, p.explicitConf) == (meta.implicitConf, meta.probeShown, meta.explicitConf)
  {
  }

  /** The oldest timestamp a packet ending at `end` summarises. */
  function FeatureWindowStart(cfg: Config, end: real): real {
    end - cfg.windowMs
  }

  // ---------------------------------------------------------------------------
  // The application

  /** The state at start-up: neutral frame and candidate started at `now`, nothing pending. */
  function InitialLive(now: real): (s: Live)
    ensures s.candidate.gesture == Neutral && !s.awaitingReset && s.holdMs == 0.0
  {
    Live(Frame(Neutral, now, 0.0, None, Init), Candidate(Neutral, now, 0.0, None, false), 0.0, false, None, None, None)
  }

  class App {
    /** The platform's floating-point primitives. */
    const math: FloatOps

    var config: Config
    var frame: Frame
    var candidate: Candidate
    var holdMs: real
    var awaitingReset: bool
    var resetSince: Option<real>
    var lastCommit: Option<Commit>
    var noGestureSince: Option<real>
    var trialMeta: TrialMeta
    var tracker: FeatureAccumulator

    /** The engine's view of the fields. */
    function State(): Live
      reads this
    {
      Live(frame, candidate, holdMs, awaitingReset, resetSince, lastCommit, noGestureSince)
    }

    constructor(now: real, math: FloatOps)
      ensures this.math == math
      ensures State() == InitialLive(now)
      ensures config == AppConfig.LoadConfig(None) && trialMeta == InitialMeta
      ensures fresh(tracker) && tracker.windowMs == AppConfig.DefaultWindowMs && tracker.samples == []
    {
      this.math := math;
      config := Settle(Defaults);
      frame := Frame(Neutral, now, 0.0, None, Init);
      candidate := Candidate(Neutral, now, 0.0, None, false);
      holdMs := 0.0;
      awaitingReset := false;
      resetSince := None;
      lastCommit := None;
      noGestureSince := None;
      trialMeta := InitialMeta;
      tracker := new FeatureAccumulator(AppConfig.DefaultWindowMs);
    }

    /**
     * The part of `loadConfig` after the fetch: install the loaded
     * configuration, start a fresh accumulator with its window, and copy its
     * identifiers into the trial metadata.
     */
    method LoadConfig(payload: Option<Overrides>)
      modifies this
      ensures config == AppConfig.LoadConfig(payload)
      ensures fresh(tracker) && tracker.windowMs == config.windowMs && tracker.samples == []
      ensures trialMeta == old(trialMeta).(participantId := config.participantId, sessionId := config.sessionId,
                                           itemId := config.itemId)
      ensures State() == old(State())
    {
      config := AppConfig.LoadConfig(payload);
      tracker := new FeatureAccumulator(config.windowMs);
      trialMeta := trialMeta.(participantId := config.participantId, sessionId := config.sessionId,
                              itemId := config.itemId);
    }

    /** `buildTrialPacket`: summarise the window before `end`, number the trial, clear the probe fields. */
    method BuildTrialPacket(gesture: Label, start: real, end: real, hold: real) returns (packet: TrialPacket)
      modifies this`trialMeta, tracker
      ensures packet == PacketOf(old(trialMeta), config, gesture, start, end, hold,
                                 Summary(InWindow(old(tracker.samples), FeatureWindowStart(config, end)), math))
      ensures trialMeta == AfterPacket(old(trialMeta))
      ensures tracker.samples == DropBefore(old(tracker.samples), FeatureWindowStart(config, end))
      ensures tracker.windowMs == old(tracker.windowMs)
    {
      var features := tracker.Summarize(Some(FeatureWindowStart(config, end)), math);
      packet := PacketOf(trialMeta, config, gesture, start, end, hold, features);
      trialMeta := AfterPacket(trialMeta);
    }

    /** The state part of `handleCommit`: build the packet, then enter the cooldown. */
    method HandleCommit(now: real) returns (packet: TrialPacket)
      modifies this`trialMeta, this`awaitingReset, this`resetSince, this`lastCommit, this`holdMs, tracker
      ensures packet == PacketOf(old(trialMeta), config, candidate.gesture, candidate.since, now, old(holdMs),
                                 Summary(InWindow(old(tracker.samples), FeatureWindowStart(config, now)), math))
      ensures awaitingReset && resetSince.None? && holdMs == 0.0
      ensures lastCommit == Some(Commit(candidate.gesture, now))
      ensures trialMeta == AfterPacket(old(trialMeta))
      ensures tracker.samples == DropBefore(old(tracker.samples), FeatureWindowStart(config, now))
      ensures tracker.windowMs == old(tracker.windowMs)
    {
      var gesture := candidate.gesture;
      var hold := holdMs;
      packet := BuildTrialPacket(gesture, candidate.since, now, hold);
      awaitingReset := true;
      resetSince := None;
      lastCommit := Some(Commit(gesture, now));
      holdMs := 0.0;
    }

    /** `updateLiveState`: advance the frame, the candidate, the hold timer and the cooldown; commit when due. */
    method UpdateLiveState(entry: Entry, now: real) returns (packet: Option<TrialPacket>)
      modifies this, tracker
      ensures State() == Step(config, old(State()), entry, now).live
      ensures packet.Some? <==> Step(config, old(State()), entry, now).fired
      ensures packet.Some? ==>
                packet.value == PacketOf(old(trialMeta), config, candidate.gesture, candidate.since, now, HoldMs(candidate, false, now),
                                         Summary(InWindow(old(tracker.samples), FeatureWindowStart(config, now)), math))
      ensures packet.Some? ==> trialMeta == AfterPacket(old(trialMeta)) &&
                               tracker.samples == DropBefore(old(tracker.samples), FeatureWindowStart(config, now))
      ensures packet.None? ==> trialMeta == old(trialMeta) && tracker.samples == old(tracker.samples)
      ensures config == old(config) && tracker == old(tracker) && tracker.windowMs == old(tracker.windowMs)
    {
      AdvanceFrame(entry, now);
      AdvanceTimers(now);
      if !awaitingReset && candidate.accepted && candidate.gesture != Neutral && holdMs >= config.stableMs {
        var p := HandleCommit(now);
        packet := Some(p);
      } else {
        packet := None;
      }
    }

    /** The first half of `updateLiveState`: the empty-gesture clock, the frame and the candidate. */
    method AdvanceFrame(entry: Entry, now: real)
      modifies this`noGestureSince, this`frame, this`candidate
      ensures noGestureSince == NextNoGestureSince(old(noGestureSince), entry.name, now)
      ensures frame == SmoothFrame(old(frame), entry, now, config.scoreSmoothing)
      ensures candidate == AdvanceCandidate(old(candidate), frame, entry, now, config)
    {
      if Present(entry.name) {
        noGestureSince := None;
      } else if !Truthy(noGestureSince) {
        noGestureSince := Some(now);
      }

      var smoothing := config.scoreSmoothing;
      var frameLabel := frame.gesture;
      var frameSince := frame.since;
      var frameScore := frame.score;
      if entry.gesture != frameLabel {
        frameLabel := entry.gesture;
        frameSince := now;
        frameScore := entry.score;
      } else {
        frameScore := Mix(Some(frameScore), entry.score, smoothing);
      }
      frame := Frame(frameLabel, frameSince, frameScore, entry.name, entry.reason);

      var timeInFrame := now - frameSince;
      var needsGrace := frameLabel == Neutral && candidate.gesture != Neutral && SoftReason(entry.reason);
      var transitionThreshold := if needsGrace then config.scoreGraceMs else config.debounceMs;
      if frameLabel != candidate.gesture {
        if timeInFrame >= transitionThreshold {
          candidate := Candidate(frameLabel, frameSince, entry.score, entry.name, entry.accepted);
        }
      } else {
        candidate := candidate.(score := Mix(Some(candidate.score), entry.score, smoothing), name := entry.name,
                                accepted := entry.accepted);
      }
    }

    /** The second half of `updateLiveState` before the commit check: the hold timer and the cooldown. */
    method AdvanceTimers(now: real)
      modifies this`holdMs, this`awaitingReset, this`resetSince
      ensures holdMs == HoldMs(candidate, old(awaitingReset), now)
      ensures (awaitingReset, resetSince) == Cooldown(old(awaitingReset), old(resetSince), candidate.gesture, now, config.resetMs)
    {
      if candidate.gesture == Neutral || awaitingReset {
        holdMs := 0.0;
      } else {
        holdMs := now - candidate.since;
      }

      if awaitingReset {
        if candidate.gesture == Neutral {
          if !Truthy(resetSince) {
            resetSince := Some(now);
          }
          if now - resetSince.value >= config.resetMs {
            awaitingReset := false;
            resetSince := None;
          }
        } else {
          resetSince := None;
        }
      }
    }

    /** `getDisplayLabel` on the current state and configuration. */
    function DisplayLabel(now: real): (d: Display)
      reads this
      ensures d == NoHand <==>
                Truthy(noGestureSince) && config.emptyGestureTimeoutMs.Coerced().Some? &&
                now - noGestureSince.value > config.emptyGestureTimeoutMs.Coerced().value
      ensures d != NoHand ==> d == Showing(candidate.gesture)
    {
      Engine.DisplayLabel(State(), config.emptyGestureTimeoutMs, now)
    }

    /**
     * The per-frame adapter of `handleRecognizerResult`: capture a feature
     * sample, pick the strongest hand, build its entry and advance the state.
     */
    method HandleRecognizerResult(hands: seq<Hand>, now: real) returns (packet: Option<TrialPacket>)
      modifies this, tracker
      ensures var entry := EntryFor(Top(hands), config);
              && State() == Step(config, old(State()), entry, now).live
              && (packet.Some? <==> Step(config, old(State()), entry, now).fired)
      ensures var captured := Captured(old(tracker.samples), hands, now, old(tracker.windowMs), math);
              && (packet.None? ==> tracker.samples == captured && trialMeta == old(trialMeta))
              && (packet.Some? ==>
                    && tracker.samples == DropBefore(captured, FeatureWindowStart(config, now))
                    && trialMeta == AfterPacket(old(trialMeta))
                    && packet.value ==
                         PacketOf(old(trialMeta), config, candidate.gesture, candidate.since, now, HoldMs(candidate, false, now),
                                  Summary(InWindow(captured, FeatureWindowStart(config, now)), math)))
      ensures config == old(config) && tracker == old(tracker) && tracker.windowMs == old(tracker.windowMs)
    {
      tracker.Capture(hands, now, math);
      var top := PickTopGesture(hands);
      var entry := EntryFor(top, config);
      packet := UpdateLiveState(entry, now);
    }
  }

  /**
   * Holding an accepted gesture from a quiet start commits it: once the
   * candidate has followed the entry, the frame that reaches `stable_ms`
   * of hold fires.
   */
  lemma HeldGestureFires(cfg: Config, s: Live, entry: Entry, now: real)
    requires !s.awaitingReset
    requires s.candidate.gesture == entry.gesture && s.frame.gesture == entry.gesture
    requires entry.gesture != Neutral && entry.accepted
    requires now - s.candidate.since >= cfg.stableMs
    ensures Step(cfg, s, entry, now).fired
    ensures Step(cfg, s, entry, now).live.lastCommit == Some(Commit(entry.gesture, now))
  {
  }
}

=== FILE: config.dfy ===
/**
 * The run-time configuration of src/app.js: the built-in defaults, the
 * shallow-with-nested-sections merge of a fetched payload over them, the
 * `max_fps`/`maxFps` alias, and the defaulting pass that repairs every
 * numeric setting that is not a finite number.
 */
module AppConfig {
  import opened Wrappers

  /**
   * A JSON value in a numeric slot: a finite number, `null`, or anything
   * else, carried with the number JavaScript's `ToNumber` makes of it
   * (`None` when that is NaN). A literal too large for a double, which
   * `JSON.parse` reads as +Infinity, is `Other(None)`: it fails
   * `Number.isFinite` and never compares as less than a finite number, as
   * NaN does. -Infinity has no representation here.
   */
  datatype Setting = Num(value: real) | Null | Other(asNumber: Option<real>)
  {
    /** `Number.isFinite`, which never coerces. */
    predicate IsFinite() {
      Num?
    }

    /** The value JavaScript's relational operators compare: `null` is 0. */
    function Coerced(): (n: Option<real>)
      ensures IsFinite() ==> n == Some(value)
      ensures Null? ==> n == Some(0.0)
      ensures Other? ==> n == asNumber
    {
      match this
      case Num(x) => Some(x)
      case Null => Some(0.0)
      case Other(n) => n
    }
  }

  /** A JSON value in the `deny_list` slot: an array of names, or anything else. */
  datatype DenySetting = List(names: seq<string>) | NotList

  /** The `features` section a payload may carry; a missing key is `None`. */
  datatype FeatureOverrides = FeatureOverrides(windowMs: Option<Setting>)

  /**
   * A fetched payload's keys; a key the payload leaves out is `None`. An
   * identifier is a string or `null`. `maxFpsAlias` is the camel-case
   * `maxFps` key. A `min_score_by_category` or `features` value that is
   * `null` or not an object adds no modelled key when spread (a string adds
   * only index keys such as "0"), and is `None` or `FeatureOverrides(None)`
   * here.
   */
  datatype Overrides = Overrides(
    stableMs: Option<Setting>,
    debounceMs: Option<Setting>,
    resetMs: Option<Setting>,
    scoreGraceMs: Option<Setting>,
    scoreSmoothing: Option<Setting>,
    maxFps: Option<Setting>,
    maxFpsAlias: Option<Setting>,
    minScore: Option<Setting>,
    minScoreByCategory: Option<map<string, real>>,
    denyList: Option<DenySetting>,
    emptyGestureTimeoutMs: Option<Setting>,
    features: Option<FeatureOverrides>,
    participantId: Option<Option<string>>,
    sessionId: Option<Option<string>>,
    itemId: Option<Option<string>>)

  /** A configuration object as `mergeConfig` leaves it: any slot may hold any JSON value. */
  datatype RawConfig = RawConfig(
    stableMs: Setting,
    debounceMs: Setting,
    resetMs: Setting,
    scoreGraceMs: Setting,
    scoreSmoothing: Setting,
    maxFps: Setting,
    minScore: Setting,
    minScoreByCategory: map<string, real>,
    denyList: DenySetting,
    emptyGestureTimeoutMs: Setting,
    windowMs: Setting,
    participantId: Option<string>,
    sessionId: Option<string>,
    itemId: Option<string>)

  /**
   * The configuration after the defaulting pass: every slot the pass repairs
   * is a number; `empty_gesture_timeout_ms`, which it does not repair, may
   * still hold any JSON value.
   */
  datatype Config = Config(
    stableMs: real,
    debounceMs: real,
    resetMs: real,
    scoreGraceMs: real,
    scoreSmoothing: real,
    maxFps: real,
    minScore: real,
    minScoreByCategory: map<string, real>,
    denyList: seq<string>,
    emptyGestureTimeoutMs: Setting,
    windowMs: real,
    participantId: Option<string>,
    sessionId: Option<string>,
    itemId: Option<string>)

  const DefaultStableMs: real := 900.0
  const DefaultDebounceMs: real := 120.0
  const DefaultResetMs: real := 250.0
  const DefaultScoreGraceMs: real := 180.0
  const DefaultScoreSmoothing: real := 0.35
  const DefaultMaxFps: real := 30.0
  const DefaultMinScore: real := 0.6
  const DefaultMinScoreByCategory: map<string, real> := map["Thumb_Up" := 0.65, "Thumb_Down" := 0.65]
  const DefaultEmptyGestureTimeoutMs: real := 1800.0
  const DefaultWindowMs: real := 1200.0

  const Defaults: RawConfig := RawConfig(
    Num(DefaultStableMs), Num(DefaultDebounceMs), Num(DefaultResetMs), Num(DefaultScoreGraceMs),
    Num(DefaultScoreSmoothing), Num(DefaultMaxFps), Num(DefaultMinScore), DefaultMinScoreByCategory,
    List([]), Num(DefaultEmptyGestureTimeoutMs), Num(DefaultWindowMs), None, None, None)

  /** `{ ...base, ...override }` for one key: the override's value when it has the key. */
  function Pick<T>(base: T, override: Option<T>): T {
    if override.Some? then override.value else base
  }

  /**
   * `mergeConfig`: top-level keys of the override replace the base's; the
   * per-category thresholds and the `features` section are merged key by key.
   * A missing override returns the base.
   */
  function MergeConfig(base: RawConfig, override: Option<Overrides>): (merged: RawConfig)
    ensures override.None? ==> merged == base
    ensures override.Some? ==>
              var o := override.value;
              && merged.stableMs == o.stableMs.GetOr(base.stableMs)
              && merged.debounceMs == o.debounceMs.GetOr(base.debounceMs)
              && merged.resetMs == o.resetMs.GetOr(base.resetMs)
              && merged.scoreGraceMs == o.scoreGraceMs.GetOr(base.scoreGraceMs)
              && merged.scoreSmoothing == o.scoreSmoothing.GetOr(base.scoreSmoothing)
              && merged.maxFps == o.maxFps.GetOr(base.maxFps)
              && merged.minScore == o.minScore.GetOr(base.minScore)
              && merged.denyList == o.denyList.GetOr(base.denyList)
              && merged.emptyGestureTimeoutMs == o.emptyGestureTimeoutMs.GetOr(base.emptyGestureTimeoutMs)
              && merged.participantId == o.participantId.GetOr(base.participantId)
              && merged.sessionId == o.sessionId.GetOr(base.sessionId)
              && merged.itemId == o.itemId.GetOr(base.itemId)
              && ((o.features.None? || o.features.value.windowMs.None?) ==> merged.windowMs == base.windowMs)
              && (o.features.Some? && o.features.value.windowMs.Some? ==>
                    merged.windowMs == o.features.value.windowMs.value)
    ensures override.Some? ==>
              forall name :: name in merged.minScoreByCategory <==>
                name in base.minScoreByCategory ||
                (override.value.minScoreByCategory.Some? && name in override.value.minScoreByCategory.value)
    ensures override.Some? && override.value.minScoreByCategory.Some? ==>
              forall name :: name in override.value.minScoreByCategory.value ==>
                merged.minScoreByCategory[name] == override.value.minScoreByCategory.value[name]
    ensures forall name ::
              (name in base.minScoreByCategory &&
               (override.None? || override.value.minScoreByCategory.None? ||
                name !in override.value.minScoreByCategory.value)) ==>
                merged.minScoreByCategory[name] == base.minScoreByCategory[name]
  {
    if override.None? then base
    else
      var o := override.value;
      RawConfig(
        Pick(base.stableMs, o.stableMs),
        Pick(base.debounceMs, o.debounceMs),
        Pick(base.resetMs, o.resetMs),
        Pick(base.scoreGraceMs, o.scoreGraceMs),
        Pick(base.scoreSmoothing, o.scoreSmoothing),
        Pick(base.maxFps, o.maxFps),
        Pick(base.minScore, o.minScore),
        base.minScoreByCategory + o.minScoreByCategory.GetOr(map[]),
        Pick(base.denyList, o.denyList),
        Pick(base.emptyGestureTimeoutMs, o.emptyGestureTimeoutMs),
        Pick(base.windowMs, if o.features.Some? then o.features.value.windowMs else None),
        Pick(base.participantId, o.participantId),
        Pick(base.sessionId, o.sessionId),
        Pick(base.itemId, o.itemId))
  }

  /** The payload that overrides nothing. */
  const NoOverrides: Overrides := Overrides(
    None, None, None, None, None, None, None, None, None, None, None, None, None, None, None)

  /** Merging an empty payload changes nothing. */
  lemma MergeEmptyIsIdentity(base: RawConfig)
    ensures MergeConfig(base, Some(NoOverrides)) == base
  {
    assert base.minScoreByCategory + map[] == base.minScoreByCategory;
  }

  /**
   * `payload.max_fps ?? payload.maxFps`: the snake-case key unless it is
   * missing or `null`.
   */
  function MaxFpsOverride(o: Overrides): Option<Setting> {
    if o.maxFps.Some? && o.maxFps.value != Null then o.maxFps else o.maxFpsAlias
  }

  /** A finite number in the slot, else the default. */
  function FiniteOr(s: Setting, default: real): real {
    if s.IsFinite() then s.value else default
  }

  /**
   * The defaulting pass after the fetch: every numeric slot that is not a
   * finite number gets its default, a deny list that is not an array
   * becomes empty, and the built-in per-category thresholds are merged
   * under the configured ones.
   */
  function Settle(raw: RawConfig): (c: Config)
    ensures c.stableMs == FiniteOr(raw.stableMs, DefaultStableMs)
    ensures c.debounceMs == FiniteOr(raw.debounceMs, DefaultDebounceMs)
    ensures c.resetMs == FiniteOr(raw.resetMs, DefaultResetMs)
    ensures c.scoreGraceMs == FiniteOr(raw.scoreGraceMs, DefaultScoreGraceMs)
    ensures c.scoreSmoothing == FiniteOr(raw.scoreSmoothing, DefaultScoreSmoothing)
    ensures c.maxFps == FiniteOr(raw.maxFps, DefaultMaxFps)
    ensures c.minScore == FiniteOr(raw.minScore, DefaultMinScore)
    ensures c.windowMs == FiniteOr(raw.windowMs, DefaultWindowMs)
    ensures c.denyList == (if raw.denyList.List? then raw.denyList.names else [])
    ensures forall name :: name in c.minScoreByCategory <==>
              name in DefaultMinScoreByCategory || name in raw.minScoreByCategory
    ensures forall name :: name in raw.minScoreByCategory ==>
              c.minScoreByCategory[name] == raw.minScoreByCategory[name]
    ensures forall name :: name in DefaultMinScoreByCategory && name !in raw.minScoreByCategory ==>
              c.minScoreByCategory[name] == DefaultMinScoreByCategory[name]
    ensures c.emptyGestureTimeoutMs == raw.emptyGestureTimeoutMs
    ensures (c.participantId, c.sessionId, c.itemId) == (raw.participantId, raw.sessionId, raw.itemId)
  {
    Config(
      FiniteOr(raw.stableMs, DefaultStableMs),
      FiniteOr(raw.debounceMs, DefaultDebounceMs),
      FiniteOr(raw.resetMs, DefaultResetMs),
      FiniteOr(raw.scoreGraceMs, DefaultScoreGraceMs),
      FiniteOr(raw.scoreSmoothing, DefaultScoreSmoothing),
      FiniteOr(raw.maxFps, DefaultMaxFps),
      FiniteOr(raw.minScore, DefaultMinScore),
      DefaultMinScoreByCategory + raw.minScoreByCategory,
      if raw.denyList.List? then raw.denyList.names else [],
      raw.emptyGestureTimeoutMs,
      FiniteOr(raw.windowMs, DefaultWindowMs),
      raw.participantId,
      raw.sessionId,
      raw.itemId)
  }

  /**
   * `loadConfig` after the fetch: `None` stands for a failed request, a
   * response that is not ok, or a body that is not a JSON object, all of
   * which leave the defaults; otherwise the payload is merged over the
   * defaults, a finite `max_fps ?? maxFps` is applied, and the result is
   * settled.
   */
  function LoadConfig(payload: Option<Overrides>): (c: Config)
    ensures payload.None? ==> c == Settle(Defaults)
  {
    if payload.None? then Settle(Defaults)
    else
      var merged := MergeConfig(Defaults, payload);
      var fps := MaxFpsOverride(payload.value);
      Settle(if fps.Some? && fps.value.IsFinite() then merged.(maxFps := fps.value) else merged)
  }

  /** Without a payload, every setting takes its documented default. */
  lemma DefaultsWithoutPayload()
    ensures var c := LoadConfig(None);
            && c.stableMs == 900.0 && c.debounceMs == 120.0 && c.resetMs == 250.0
            && c.scoreGraceMs == 180.0 && c.scoreSmoothing == 0.35 && c.maxFps == 30.0
            && c.minScore == 0.6 && c.windowMs == 1200.0 && c.denyList == []
            && c.minScoreByCategory == map["Thumb_Up" := 0.65, "Thumb_Down" := 0.65]
            && c.emptyGestureTimeoutMs == Num(1800.0)
            && c.participantId.None? && c.sessionId.None? && c.itemId.None?
  {
    assert DefaultMinScoreByCategory + map[] == DefaultMinScoreByCategory;
  }

  /**
   * A payload's setting is used exactly when it is a finite number; a
   * missing, `null` or non-numeric value falls back to the default.
   */
  lemma PayloadNumbersWin(o: Overrides)
    ensures var c := LoadConfig(Some(o));
            && c.stableMs == (if o.stableMs.Some? && o.stableMs.value.IsFinite() then o.stableMs.value.value else DefaultStableMs)
            && c.resetMs == (if o.resetMs.Some? && o.resetMs.value.IsFinite() then o.resetMs.value.value else DefaultResetMs)
            && c.scoreGraceMs == (if o.scoreGraceMs.Some? && o.scoreGraceMs.value.IsFinite() then o.scoreGraceMs.value.value else DefaultScoreGraceMs)
            && c.debounceMs == (if o.debounceMs.Some? && o.debounceMs.value.IsFinite() then o.debounceMs.value.value else DefaultDebounceMs)
            && c.scoreSmoothing == (if o.scoreSmoothing.Some? && o.scoreSmoothing.value.IsFinite() then o.scoreSmoothing.value.value else DefaultScoreSmoothing)
            && c.minScore == (if o.minScore.Some? && o.minScore.value.IsFinite() then o.minScore.value.value else DefaultMinScore)
  {
  }

  /**
   * The frame-rate cap: a numeric `max_fps` wins; a missing or `null` one
   * defers to a numeric `maxFps`; anything else leaves 30.
   */
  lemma MaxFpsPrecedence(o: Overrides)
    ensures o.maxFps.Some? && o.maxFps.value.IsFinite() ==> LoadConfig(Some(o)).maxFps == o.maxFps.value.value
    ensures (o.maxFps.None? || o.maxFps.value == Null) && o.maxFpsAlias.Some? && o.maxFpsAlias.value.IsFinite() ==>
              LoadConfig(Some(o)).maxFps == o.maxFpsAlias.value.value
    ensures o.maxFps.Some? && o.maxFps.value.Other? ==> LoadConfig(Some(o)).maxFps == DefaultMaxFps
  {
  }

  /**
   * After loading, both thumb categories always have a threshold, and a
   * payload's per-category value beats the built-in one.
   */
  lemma ThumbThresholdsAlwaysPresent(payload: Option<Overrides>)
    ensures "Thumb_Up" in LoadConfig(payload).minScoreByCategory
    ensures "Thumb_Down" in LoadConfig(payload).minScoreByCategory
    ensures payload.Some? && payload.value.minScoreByCategory.Some? ==>
              forall name :: name in payload.value.minScoreByCategory.value ==>
                LoadConfig(payload).minScoreByCategory[name] == payload.value.minScoreByCategory.value[name]
  {
  }

  /** The sample window is a payload's finite `features.window_ms`, else 1200. */
  lemma WindowFromFeatures(o: Overrides)
    ensures var w := if o.features.Some? then o.features.value.windowMs else None;
            LoadConfig(Some(o)).windowMs == (if w.Some? && w.value.IsFinite() then w.value.value else DefaultWindowMs)
  {
  }

  /** `empty_gesture_timeout_ms` is taken from the payload as it is, without repair. */
  lemma EmptyGestureTimeoutUnrepaired(o: Overrides)
    ensures LoadConfig(Some(o)).emptyGestureTimeoutMs == o.emptyGestureTimeoutMs.GetOr(Num(DefaultEmptyGestureTimeoutMs))
  {
  }
}

=== FILE: detection.dfy ===
/**
 * The per-frame record the hand tracker delivers to the application
 * (the output of `normalizeResult` in src/tracker.js, which is not part of
 * this model): one entry per detected hand.
 */
module Detection {
  import opened Wrappers

  /** A landmark in normalized image coordinates; `z` may be missing. */
  datatype Landmark = Landmark(x: real, y: real, z: Option<real>)

  /**
   * A detected hand. `landmarks` is indexed anatomically (0 is the wrist, 4 the
   * thumb tip); an entry that is not there is `None`. `category` is the top
   * gesture name, `score` its score, `None` when it is not a finite number.
   */
  datatype Hand = Hand(
    landmarks: seq<Option<Landmark>>,
    handedness: Option<string>,
    category: Option<string>,
    score: Option<real>)
}

=== FILE: engine.dfy ===
/**
 * The stabilisation engine of src/app.js as pure functions over one state
 * record: an exponentially smoothed frame, a debounced candidate with two
 * dwell thresholds, a hold timer, a cooldown that must see a neutral
 * candidate for `reset_ms` after each commit, and the commit trigger.
 * The application class in app.dfy performs the same step on its fields,
 * and its contract ties it to `Step` below.
 */
module Engine {
  import opened Wrappers
  import opened Gesture
  import opened AppConfig

  /** One frame's classification as the recognizer adapter hands it in. */
  datatype Entry = Entry(gesture: Label, name: Option<string>, score: real, accepted: bool, reason: Reason)

  /** The smoothed label of the recent frames. */
  datatype Frame = Frame(gesture: Label, since: real, score: real, name: Option<string>, reason: Reason)

  /** The debounced label that drives the hold timer and commits. */
  datatype Candidate = Candidate(gesture: Label, since: real, score: real, name: Option<string>, accepted: bool)

  datatype Commit = Commit(gesture: Label, at: real)

  /**
   * The engine's part of the application state. An unset timestamp is
   * `None`; the source tests timestamps for truthiness, so a timestamp of
   * exactly 0 also counts as unset (see `Truthy`).
   */
  datatype Live = Live(
    frame: Frame,
    candidate: Candidate,
    holdMs: real,
    awaitingReset: bool,
    resetSince: Option<real>,
    lastCommit: Option<Commit>,
    noGestureSince: Option<real>)

  /** The state after one frame, and whether that frame fired a commit. */
  datatype StepResult = StepResult(live: Live, fired: bool)

  /** JavaScript truthiness of a nullable timestamp: set and not 0. */
  predicate Truthy(t: Option<real>) {
    t.Some? && t.value != 0.0
  }

  /**
   * `mix`: an exponential moving-average step from `current` toward `next`.
   * A non-finite current value (`None`) is replaced outright.
   */
  function Mix(current: Option<real>, next: real, alpha: real): (r: real)
    ensures current.None? ==> r == next
    ensures current.Some? && alpha == 0.0 ==> r == current.value
    ensures current.Some? && alpha == 1.0 ==> r == next
  {
    if current.None? then next else current.value + alpha * (next - current.value)
  }

  /** With a smoothing factor in [0, 1] the blend lies between the old and the new value. */
  lemma MixBetween(current: real, next: real, alpha: real)
    requires 0.0 <= alpha <= 1.0
    ensures current <= next ==> current <= Mix(Some(current), next, alpha) <= next
    ensures next <= current ==> next <= Mix(Some(current), next, alpha) <= current
  {
    var d := next - current;
    if d >= 0.0 {
      assert alpha * d >= 0.0;
      assert (1.0 - alpha) * d >= 0.0;
    } else {
      assert alpha * (-d) >= 0.0;
      assert (1.0 - alpha) * (-d) >= 0.0;
    }
  }

  // ---------------------------------------------------------------------------
  // The sub-steps of one frame, in the order the source runs them

  /**
   * The start of the current run of nameless frames: cleared by a named
   * entry, started by the first nameless one, otherwise kept.
   */
  function NextNoGestureSince(noGestureSince: Option<real>, name: Option<string>, now: real): Option<real> {
    if Present(name) then None
    else if !Truthy(noGestureSince) then Some(now)
    else noGestureSince
  }

  /**
   * The frame follows every entry's label: a new label restarts the frame's
   * clock and score, the same label keeps the clock and blends the score.
   */
  function SmoothFrame(frame: Frame, entry: Entry, now: real, smoothing: real): Frame {
    if entry.gesture != frame.gesture then Frame(entry.gesture, now, entry.score, entry.name, entry.reason)
    else Frame(frame.gesture, frame.since, Mix(Some(frame.score), entry.score, smoothing), entry.name, entry.reason)
  }

  /** The rejection reasons that mean "the hand may still be there". */
  predicate SoftReason(reason: Reason) {
    reason == BelowThreshold || reason == MissingName || reason == DenyList || reason == NoGesture
  }

  /**
   * The dwell a frame label needs before the candidate follows it: the grace
   * period when a held gesture drops to neutral for a soft reason, else the
   * debounce period.
   */
  function DwellThreshold(cfg: Config, frameLabel: Label, candidateLabel: Label, reason: Reason): real {
    if frameLabel == Neutral && candidateLabel != Neutral && SoftReason(reason) then cfg.scoreGraceMs
    else cfg.debounceMs
  }

  /**
   * The candidate takes a different frame label, with the frame's start time
   * and the entry's raw score, once the frame has lasted the dwell threshold;
   * on the same label it blends the score and copies name and acceptance.
   */
  function AdvanceCandidate(c: Candidate, f: Frame, entry: Entry, now: real, cfg: Config): Candidate {
    if f.gesture != c.gesture then
      if now - f.since >= DwellThreshold(cfg, f.gesture, c.gesture, entry.reason) then
        Candidate(f.gesture, f.since, entry.score, entry.name, entry.accepted)
      else c
    else
      c.(score := Mix(Some(c.score), entry.score, cfg.scoreSmoothing), name := entry.name, accepted := entry.accepted)
  }

  /** The hold timer: the candidate's age, or 0 for a neutral candidate or during the cooldown. */
  function HoldMs(c: Candidate, awaitingReset: bool, now: real): (h: real)
    ensures c.since <= now ==> h >= 0.0
  {
    if c.gesture == Neutral then 0.0
    else if awaitingReset then 0.0
    else now - c.since
  }

  /** When the current neutral stretch of the cooldown started: the recorded time, or now. */
  function ResetOrigin(resetSince: Option<real>, now: real): real {
    if Truthy(resetSince) then resetSince.value else now
  }

  /**
   * The cooldown after a commit: it ends once the candidate has been neutral
   * for `resetMs`, and a non-neutral candidate restarts it. Returns the new
   * `(awaitingReset, resetSince)`.
   */
  function Cooldown(awaitingReset: bool, resetSince: Option<real>, candidateLabel: Label, now: real, resetMs: real)
    : (r: (bool, Option<real>))
    ensures !awaitingReset ==> r == (false, resetSince)
    ensures awaitingReset && candidateLabel != Neutral ==> r == (true, None)
    ensures awaitingReset && !r.0 ==>
              candidateLabel == Neutral && now - ResetOrigin(resetSince, now) >= resetMs && r.1.None?
    ensures awaitingReset && candidateLabel == Neutral && now - ResetOrigin(resetSince, now) >= resetMs ==> !r.0
    ensures r.0 ==> r.1.None? || r.1 == Some(ResetOrigin(resetSince, now))
  {
    if !awaitingReset then (false, resetSince)
    else if candidateLabel != Neutral then (true, None)
    else
      var origin := ResetOrigin(resetSince, now);
      if now - origin >= resetMs then (false, None) else (true, Some(origin))
  }

  /** The commit trigger: an accepted, non-neutral candidate held for `stableMs` outside the cooldown. */
  predicate ShouldCommit(awaitingReset: bool, c: Candidate, holdMs: real, stableMs: real) {
    !awaitingReset && c.accepted && c.gesture != Neutral && holdMs >= stableMs
  }

  /** One call of `updateLiveState`, including the state part of `handleCommit`. */
  function Step(cfg: Config, s: Live, entry: Entry, now: real): (r: StepResult)
    ensures s.awaitingReset ==> !r.fired
    ensures r.fired ==>
              && r.live.awaitingReset && r.live.resetSince.None? && r.live.holdMs == 0.0
              && r.live.candidate.gesture != Neutral && r.live.candidate.accepted
              && now - r.live.candidate.since >= cfg.stableMs
              && r.live.lastCommit == Some(Commit(r.live.candidate.gesture, now))
    ensures !r.fired ==> r.live.lastCommit == s.lastCommit
    ensures r.live.frame.gesture == entry.gesture
    ensures r.live.candidate.gesture != s.candidate.gesture ==>
              && r.live.candidate.gesture == entry.gesture
              && r.live.candidate.since == r.live.frame.since
              && now - r.live.frame.since >=
                   (if entry.gesture == Neutral && SoftReason(entry.reason) then cfg.scoreGraceMs else cfg.debounceMs)
    ensures s.awaitingReset && !r.live.awaitingReset ==> r.live.candidate.gesture == Neutral
    ensures s.frame.since <= now && s.candidate.since <= now ==>
              r.live.frame.since <= now && r.live.candidate.since <= now && r.live.holdMs >= 0.0
  {
    var noGestureSince := NextNoGestureSince(s.noGestureSince, entry.name, now);
    var frame := SmoothFrame(s.frame, entry, now, cfg.scoreSmoothing);
    var candidate := AdvanceCandidate(s.candidate, frame, entry, now, cfg);
    var holdMs := HoldMs(candidate, s.awaitingReset, now);
    var cooldown := Cooldown(s.awaitingReset, s.resetSince, candidate.gesture, now, cfg.resetMs);
    if ShouldCommit(cooldown.0, candidate, holdMs, cfg.stableMs) then
      StepResult(Live(frame, candidate, 0.0, true, None, Some(Commit(candidate.gesture, now)), noGestureSince), true)
    else
      StepResult(Live(frame, candidate, holdMs, cooldown.0, cooldown.1, s.lastCommit, noGestureSince), false)
  }

  /**
   * The frame follows the entry: a new label restarts its clock at `now`
   * and its score at the entry's, the same label keeps the clock and moves
   * the score toward the entry's, never past it when the smoothing factor
   * is in [0, 1].
   */
  lemma FrameFollowsEntry(cfg: Config, s: Live, entry: Entry, now: real)
    ensures var f := Step(cfg, s, entry, now).live.frame;
            && f.gesture == entry.gesture && f.name == entry.name && f.reason == entry.reason
            && (entry.gesture != s.frame.gesture ==> f.since == now && f.score == entry.score)
            && (entry.gesture == s.frame.gesture ==> f.since == s.frame.since)
            && (entry.gesture == s.frame.gesture && 0.0 <= cfg.scoreSmoothing <= 1.0 ==>
                  (s.frame.score <= entry.score ==> s.frame.score <= f.score <= entry.score) &&
                  (entry.score <= s.frame.score ==> entry.score <= f.score <= s.frame.score))
  {
    if entry.gesture == s.frame.gesture && 0.0 <= cfg.scoreSmoothing <= 1.0 {
      MixBetween(s.frame.score, entry.score, cfg.scoreSmoothing);
    }
  }

  /**
   * The candidate switches to a different label exactly when the frame
   * carrying that label has lasted the dwell: `score_grace_ms` when a held
   * gesture drops to neutral for a soft reason, `debounce_ms` otherwise.
   * The frame's start is the recorded one when the label continues, else now.
   */
  lemma DwellDecidesSwitch(cfg: Config, s: Live, entry: Entry, now: real)
    requires entry.gesture != s.candidate.gesture
    ensures var since := if entry.gesture == s.frame.gesture then s.frame.since else now;
            var dwell := if entry.gesture == Neutral && SoftReason(entry.reason) then cfg.scoreGraceMs else cfg.debounceMs;
            var c := Step(cfg, s, entry, now).live.candidate;
            && (c.gesture == entry.gesture <==> now - since >= dwell)
            && (c.gesture == entry.gesture ==> c == Candidate(entry.gesture, since, entry.score, entry.name, entry.accepted))
            && (c.gesture != entry.gesture ==> c == s.candidate)
  {
  }

  /**
   * On the candidate's own label the candidate keeps its label and start,
   * copies the entry's name and acceptance, and moves its score toward the
   * entry's, never past it when the smoothing factor is in [0, 1].
   */
  lemma SameLabelRefreshesCandidate(cfg: Config, s: Live, entry: Entry, now: real)
    requires entry.gesture == s.candidate.gesture
    ensures var c := Step(cfg, s, entry, now).live.candidate;
            && c.gesture == s.candidate.gesture && c.since == s.candidate.since
            && c.name == entry.name && c.accepted == entry.accepted
            && (0.0 <= cfg.scoreSmoothing <= 1.0 ==>
                  (s.candidate.score <= entry.score ==> s.candidate.score <= c.score <= entry.score) &&
                  (entry.score <= s.candidate.score ==> entry.score <= c.score <= s.candidate.score))
  {
    if 0.0 <= cfg.scoreSmoothing <= 1.0 {
      MixBetween(s.candidate.score, entry.score, cfg.scoreSmoothing);
    }
  }

  /**
   * The hold timer after a frame that does not commit: 0 for a neutral
   * candidate or when the frame began in the cooldown, else the candidate's
   * age. A frame that commits resets it to 0.
   */
  lemma HoldTracksCandidate(cfg: Config, s: Live, entry: Entry, now: real)
    ensures var r := Step(cfg, s, entry, now);
            var c := r.live.candidate;
            && (!r.fired ==> r.live.holdMs == (if c.gesture == Neutral || s.awaitingReset then 0.0 else now - c.since))
            && (r.fired ==> r.live.holdMs == 0.0)
  {
  }

  /**
   * A frame commits exactly when it began outside the cooldown and its
   * candidate is accepted, not neutral, and at least `stable_ms` old; the
   * commit records the candidate's label at `now`.
   */
  lemma CommitFiresExactly(cfg: Config, s: Live, entry: Entry, now: real)
    ensures var r := Step(cfg, s, entry, now);
            var c := r.live.candidate;
            && (r.fired <==> !s.awaitingReset && c.accepted && c.gesture != Neutral && now - c.since >= cfg.stableMs)
            && (r.fired ==> r.live.lastCommit == Some(Commit(c.gesture, now)))
  {
  }

  /**
   * The empty-gesture clock: a named entry clears it, the first nameless
   * entry starts it at `now`, and later nameless entries keep it. A recorded
   * start of exactly 0 is falsy and restarts.
   */
  lemma NoGestureClock(cfg: Config, s: Live, entry: Entry, now: real)
    ensures var g := Step(cfg, s, entry, now).live.noGestureSince;
            && (Present(entry.name) ==> g.None?)
            && (!Present(entry.name) && !Truthy(s.noGestureSince) ==> g == Some(now))
            && (!Present(entry.name) && Truthy(s.noGestureSince) ==> g == s.noGestureSince)
  {
  }

  // ---------------------------------------------------------------------------
  // The display label

  datatype Display = NoHand | Showing(gesture: Label)

  /**
   * `getDisplayLabel`: "no hand" once nameless frames have lasted longer
   * than the timeout, else the candidate's label. The timeout slot is not
   * repaired by the configuration loader, so it is compared the way
   * JavaScript compares a number with any JSON value.
   */
  function DisplayLabel(s: Live, timeout: Setting, now: real): (d: Display)
    ensures d == NoHand <==>
              Truthy(s.noGestureSince) && timeout.Coerced().Some? && now - s.noGestureSince.value > timeout.Coerced().value
    ensures d != NoHand ==> d == Showing(s.candidate.gesture)
  {
    if Truthy(s.noGestureSince) && timeout.Coerced().Some? && now - s.noGestureSince.value > timeout.Coerced().value
    then NoHand
    else Showing(s.candidate.gesture)
  }

  /** A frame with a gesture name always shows the candidate's label. */
  lemma NamedFrameShowsCandidate(cfg: Config, s: Live, entry: Entry, now: real, later: real)
    requires Present(entry.name)
    ensures var t := Step(cfg, s, entry, now).live;
            DisplayLabel(t, cfg.emptyGestureTimeoutMs, later) == Showing(t.candidate.gesture)
  {
  }

  /** With a numeric timeout, nameless frames show "no hand" once they outlast it (timestamps positive). */
  lemma NamelessFramesShowNoHand(cfg: Config, s: Live, entry: Entry, now: real, later: real)
    requires !Present(entry.name) && now > 0.0
    requires cfg.emptyGestureTimeoutMs.Num?
    requires !Truthy(s.noGestureSince)
    requires later - now > cfg.emptyGestureTimeoutMs.value
    ensures DisplayLabel(Step(cfg, s, entry, now).live, cfg.emptyGestureTimeoutMs, later) == NoHand
  {
  }

  // ---------------------------------------------------------------------------
  // Runs of frames

  datatype Tick = Tick(entry: Entry, now: real)

  /** The states a run of frames passes through, starting from `s0`. */
  function States(cfg: Config, s0: Live, ticks: seq<Tick>): (ss: seq<Live>)
    ensures |ss| == |ticks| + 1 && ss[0] == s0
    decreases |ticks|
  {
    if ticks == [] then [s0]
    else
      var init := States(cfg, s0, ticks[..|ticks| - 1]);
      var last := ticks[|ticks| - 1];
      init + [Step(cfg, init[|init| - 1], last.entry, last.now).live]
  }

  /** Each state of a run is the step of the one before it on that frame. */
  lemma {:induction false} StatesStep(cfg: Config, s0: Live, ticks: seq<Tick>, k: nat)
    requires k < |ticks|
    ensures States(cfg, s0, ticks)[k + 1] == Step(cfg, States(cfg, s0, ticks)[k], ticks[k].entry, ticks[k].now).live
  {
    var n := |ticks|;
    var init := States(cfg, s0, ticks[..n - 1]);
    assert States(cfg, s0, ticks) == init + [Step(cfg, init[n - 1], ticks[n - 1].entry, ticks[n - 1].now).live];
    if k < n - 1 {
      StatesStep(cfg, s0, ticks[..n - 1], k);
      assert ticks[..n - 1][k] == ticks[k];
    }
  }

  /** Whether the `k`-th frame of the run fired a commit. */
  predicate Fired(cfg: Config, s0: Live, ticks: seq<Tick>, k: nat)
    requires k < |ticks|
  {
    Step(cfg, States(cfg, s0, ticks)[k], ticks[k].entry, ticks[k].now).fired
  }

  /** Frame times never go backwards. */
  predicate Monotone(ticks: seq<Tick>) {
    forall k :: 0 < k < |ticks| ==> ticks[k - 1].now <= ticks[k].now
  }

  /**
   * With non-decreasing frame times that start no earlier than the state's
   * clocks, the hold timer is never negative.
   */
  lemma {:induction false} HoldNeverNegative(cfg: Config, s0: Live, ticks: seq<Tick>)
    requires Monotone(ticks)
    requires s0.holdMs >= 0.0
    requires ticks != [] ==> s0.frame.since <= ticks[0].now && s0.candidate.since <= ticks[0].now
    ensures forall k :: 0 <= k <= |ticks| ==> States(cfg, s0, ticks)[k].holdMs >= 0.0
  {
    var ss := States(cfg, s0, ticks);
    forall k | 0 <= k <= |ticks| ensures ss[k].holdMs >= 0.0 {
      ClocksBehind(cfg, s0, ticks, k);
    }
  }

  /** Every state's frame and candidate clocks are behind the next frame time and its hold is non-negative. */
  lemma {:induction false} ClocksBehind(cfg: Config, s0: Live, ticks: seq<Tick>, k: nat)
    requires Monotone(ticks)
    requires s0.holdMs >= 0.0
    requires ticks != [] ==> s0.frame.since <= ticks[0].now && s0.candidate.since <= ticks[0].now
    requires k <= |ticks|
    ensures var s := States(cfg, s0, ticks)[k];
            && s.holdMs >= 0.0
            && (k < |ticks| ==> s.frame.since <= ticks[k].now && s.candidate.since <= ticks[k].now)
  {
    var ss := States(cfg, s0, ticks);
    if k > 0 {
      ClocksBehind(cfg, s0, ticks, k - 1);
      var t := ticks[k - 1];
      StatesStep(cfg, s0, ticks, k - 1);
      assert ss[k].frame.since <= t.now && ss[k].candidate.since <= t.now && ss[k].holdMs >= 0.0;
      if k < |ticks| {
        assert t.now <= ticks[k].now;
      }
    }
  }

  /**
   * One frame during the cooldown: it never commits; a non-neutral candidate
   * clears the neutral start; a neutral one either ends the cooldown, when it
   * has lasted `resetMs` since the neutral start, or records that start.
   */
  lemma CooldownStep(cfg: Config, s: Live, entry: Entry, now: real)
    requires s.awaitingReset
    ensures var r := Step(cfg, s, entry, now);
            && !r.fired
            && (r.live.candidate.gesture != Neutral ==> r.live.awaitingReset && r.live.resetSince.None?)
            && (r.live.candidate.gesture == Neutral && now - ResetOrigin(s.resetSince, now) < cfg.resetMs ==>
                  r.live.awaitingReset && r.live.resetSince == Some(ResetOrigin(s.resetSince, now)))
            && (r.live.candidate.gesture == Neutral && now - ResetOrigin(s.resetSince, now) >= cfg.resetMs ==>
                  !r.live.awaitingReset)
  {
  }

  /**
   * Every frame `a..b` saw a neutral candidate after its step: the
   * continuous neutral stretch the cooldown needs.
   */
  ghost predicate NeutralThrough(ss: seq<Live>, a: nat, b: nat)
    requires b < |ss| - 1
  {
    forall k :: a < k <= b + 1 ==> ss[k].candidate.gesture == Neutral
  }

  /**
   * The cooldown after a commit at frame `i`, as seen before frame `m`:
   * either still pending, with any recorded neutral start at a frame
   * `a` since which the candidate stayed neutral, or completed by a neutral
   * stretch `a..b` lasting `resetMs`.
   */
  lemma {:induction false} CooldownProgress(cfg: Config, s0: Live, ticks: seq<Tick>, i: nat, m: nat)
    returns (pending: bool, a: nat, b: nat)
    requires i < m <= |ticks|
    requires Fired(cfg, s0, ticks, i)
    ensures var ss := States(cfg, s0, ticks);
            pending ==>
              && ss[m].awaitingReset
              && (ss[m].resetSince.Some? ==>
                    i < a < m && ss[m].resetSince == Some(ticks[a].now) && NeutralThrough(ss, a, m - 1))
    ensures var ss := States(cfg, s0, ticks);
            !pending ==>
              i < a <= b < m && ticks[b].now - ticks[a].now >= cfg.resetMs && NeutralThrough(ss, a, b)
  {
    var ss := States(cfg, s0, ticks);
    if m == i + 1 {
      StatesStep(cfg, s0, ticks, i);
      return true, 0, 0;
    }
    pending, a, b := CooldownProgress(cfg, s0, ticks, i, m - 1);
    if !pending {
      return;
    }
    var k := m - 1;
    var s := ss[k];
    var t := ticks[k];
    var r := Step(cfg, s, t.entry, t.now);
    StatesStep(cfg, s0, ticks, k);
    CooldownStep(cfg, s, t.entry, t.now);
    var held := r.live.candidate.gesture;
    if held != Neutral {
      assert ss[m].awaitingReset && ss[m].resetSince.None?;
      return true, a, b;
    }
    var origin := ResetOrigin(s.resetSince, t.now);
    var start: nat := if Truthy(s.resetSince) then a else k;
    assert origin == ticks[start].now;
    assert NeutralThrough(ss, start, k) by {
      forall j | start < j <= k + 1 ensures ss[j].candidate.gesture == Neutral {
        if j <= k {
          assert NeutralThrough(ss, a, k - 1);
        }
      }
    }
    if t.now - origin >= cfg.resetMs {
      return false, start, k;
    } else {
      assert ss[m].resetSince == Some(origin);
      return true, start, b;
    }
  }

  /**
   * Between any two commits of a run the candidate was neutral throughout a
   * stretch of frames `a..b` spanning at least `reset_ms`, so a gesture that
   * stays up commits once and must be released before it commits again.
   */
  lemma CooldownBetweenCommits(cfg: Config, s0: Live, ticks: seq<Tick>, i: nat, j: nat) returns (a: nat, b: nat)
    requires i < j < |ticks|
    requires Fired(cfg, s0, ticks, i) && Fired(cfg, s0, ticks, j)
    ensures i < a <= b < j
    ensures ticks[b].now - ticks[a].now >= cfg.resetMs
    ensures forall k :: a < k <= b + 1 ==> States(cfg, s0, ticks)[k].candidate.gesture == Neutral
  {
    var pending;
    pending, a, b := CooldownProgress(cfg, s0, ticks, i, j);
    if pending {
      assert false;
    }
  }

  /**
   * Neither the display, the cooldown nor a commit depends on scores: two
   * entries that differ only in score lead to the same labels, clocks and
   * commit decision.
   */
  lemma ScoreDoesNotSteerLabels(cfg: Config, s: Live, e1: Entry, e2: Entry, now: real)
    requires e1.(score := 0.0) == e2.(score := 0.0)
    ensures var r1 := Step(cfg, s, e1, now); var r2 := Step(cfg, s, e2, now);
            && r1.fired == r2.fired
            && r1.live.candidate.gesture == r2.live.candidate.gesture
            && r1.live.candidate.since == r2.live.candidate.since
            && r1.live.awaitingReset == r2.live.awaitingReset
            && r1.live.holdMs == r2.live.holdMs
  {
  }
}

=== FILE: features.dfy ===
/**
 * The kinematic feature accumulator of src/features.js: a time-ordered buffer
 * of thumb samples, pruned to a trailing window, summarised on demand into
 * amplitude, jitter, stability and a repetition count.
 */
module Features {
  import opened Wrappers
  import opened Detection

  /** One kinematic sample; `distance` is the wrist-to-thumb-tip distance. */
  datatype Sample = Sample(timestamp: real, distance: real, thumbY: real, wristY: real)

  datatype FeatureSummary = FeatureSummary(amplitude: real, jitter: real, stability: real, repetitions: nat)

  /**
   * The platform's floating-point primitives the accumulator calls:
   * `Math.hypot` of three deltas, `Math.sqrt`, and the division of jitter
   * by amplitude.
   */
  datatype FloatOps = FloatOps(
    hypot: (real, real, real) -> real,
    sqrt: real -> real,
    divide: (real, real) -> real)

  /**
   * What IEEE arithmetic guarantees of the primitives and the bounds rely on:
   * the square root of a non-negative number and the quotient of a
   * non-negative number by a positive one are never negative.
   */
  ghost predicate SignPreserving(math: FloatOps) {
    && (forall x: real :: 0.0 <= x ==> 0.0 <= math.sqrt(x))
    && (forall x: real, y: real :: 0.0 <= x && 0.0 < y ==> 0.0 <= math.divide(x, y))
  }

  /** A vertical step counts toward a repetition only above this magnitude. */
  const NoiseFloor: real := 0.02

  function ZeroFeatures(): FeatureSummary {
    FeatureSummary(0.0, 0.0, 0.0, 0)
  }

  /** Time-ordered: no sample is older than the one before it. */
  ghost predicate Sorted(s: seq<Sample>) {
    forall i :: 0 < i < |s| ==> s[i - 1].timestamp <= s[i].timestamp
  }

  /** No sample is older than `min`. */
  ghost predicate NoneBefore(s: seq<Sample>, min: real) {
    forall i :: 0 <= i < |s| ==> s[i].timestamp >= min
  }

  /** A time-ordered buffer holding nothing older than `min`. */
  ghost predicate WindowBounded(s: seq<Sample>, min: real) {
    Sorted(s) && NoneBefore(s, min)
  }

  // ---------------------------------------------------------------------------
  // Pruning and windowing

  /** The buffer after dropping leading samples older than `min`. */
  function DropBefore(s: seq<Sample>, min: real): (r: seq<Sample>)
    ensures |r| <= |s|
    ensures r != [] ==> r[0].timestamp >= min
    decreases |s|
  {
    if s != [] && s[0].timestamp < min then DropBefore(s[1..], min) else s
  }

  /** Pruning removes a prefix of the buffer, every sample of which is older than `min`. */
  lemma {:induction false} DropBeforeDropsOldPrefix(s: seq<Sample>, min: real)
    ensures DropBefore(s, min) == s[|s| - |DropBefore(s, min)|..]
    ensures forall i :: 0 <= i < |s| - |DropBefore(s, min)| ==> s[i].timestamp < min
  {
    if s != [] && s[0].timestamp < min {
      DropBeforeDropsOldPrefix(s[1..], min);
      var r := DropBefore(s, min);
      forall i | 0 <= i < |s| - |r| ensures s[i].timestamp < min {
        if i > 0 {
          assert s[i] == s[1..][i - 1];
        }
      }
    }
  }

  /** The samples at or after `start`, in buffer order (the source's `filter`). */
  function InWindow(s: seq<Sample>, start: real): (w: seq<Sample>)
    ensures |w| <= |s|
    ensures forall i :: 0 <= i < |w| ==> w[i].timestamp >= start
  {
    if s == [] then []
    else (if s[0].timestamp >= start then [s[0]] else []) + InWindow(s[1..], start)
  }

  /** The window holds exactly the buffer's samples at or after `start`. */
  lemma {:induction false} InWindowMembers(s: seq<Sample>, start: real)
    ensures forall x :: x in InWindow(s, start) <==> x in s && x.timestamp >= start
  {
    if s != [] {
      InWindowMembers(s[1..], start);
      assert s == [s[0]] + s[1..];
    }
  }

  /** Pruning before filtering never changes which samples are in the window. */
  lemma {:induction false} InWindowIgnoresPruned(s: seq<Sample>, start: real)
    ensures InWindow(DropBefore(s, start), start) == InWindow(s, start)
  {
    if s != [] && s[0].timestamp < start {
      InWindowIgnoresPruned(s[1..], start);
    }
  }

  /** On a time-ordered buffer, every sample that survives pruning is inside the window. */
  lemma {:induction false} PrunedSortedIsInWindow(s: seq<Sample>, min: real)
    requires Sorted(s)
    ensures WindowBounded(DropBefore(s, min), min)
  {
    if s != [] && s[0].timestamp < min {
      PrunedSortedIsInWindow(s[1..], min);
    } else if s != [] {
      SortedFromFirst(s, min);
    }
  }

  /** A time-ordered buffer whose first sample is at or after `min` holds nothing older. */
  lemma {:induction false} SortedFromFirst(s: seq<Sample>, min: real)
    requires Sorted(s) && s != [] && s[0].timestamp >= min
    ensures NoneBefore(s, min)
  {
    if |s| > 1 {
      SortedFromFirst(s[1..], min);
      forall i | 0 < i < |s| ensures s[i].timestamp >= min {
        assert s[i] == s[1..][i - 1];
      }
    }
  }

  /** The newest sample survives its own prune when the window is not negative. */
  lemma CaptureKeepsNewest(s: seq<Sample>, x: Sample, windowMs: real)
    requires windowMs >= 0.0
    ensures var r := DropBefore(s + [x], x.timestamp - windowMs); r != [] && r[|r| - 1] == x
  {
    var t := s + [x];
    DropBeforeDropsOldPrefix(t, x.timestamp - windowMs);
    assert t[|t| - 1] == x;
  }

  // ---------------------------------------------------------------------------
  // Statistics

  function Distances(w: seq<Sample>): (ds: seq<real>)
    ensures |ds| == |w| && forall i :: 0 <= i < |w| ==> ds[i] == w[i].distance
  {
    if w == [] then [] else [w[0].distance] + Distances(w[1..])
  }

  function Maximum(ds: seq<real>): real
    requires |ds| > 0
  {
    if |ds| == 1 then ds[0]
    else
      var rest := Maximum(ds[1..]);
      if ds[0] >= rest then ds[0] else rest
  }

  function Minimum(ds: seq<real>): real
    requires |ds| > 0
  {
    if |ds| == 1 then ds[0]
    else
      var rest := Minimum(ds[1..]);
      if ds[0] <= rest then ds[0] else rest
  }

  /** `Math.max(...ds)`: an element of `ds` no smaller than any other. */
  lemma {:induction false} MaximumIsGreatest(ds: seq<real>)
    requires |ds| > 0
    ensures Maximum(ds) in ds
    ensures forall i :: 0 <= i < |ds| ==> ds[i] <= Maximum(ds)
  {
    if |ds| > 1 {
      MaximumIsGreatest(ds[1..]);
      forall i | 1 <= i < |ds| ensures ds[i] <= Maximum(ds) {
        assert ds[i] == ds[1..][i - 1];
      }
    }
  }

  /** `Math.min(...ds)`: an element of `ds` no greater than any other. */
  lemma {:induction false} MinimumIsLeast(ds: seq<real>)
    requires |ds| > 0
    ensures Minimum(ds) in ds
    ensures forall i :: 0 <= i < |ds| ==> Minimum(ds) <= ds[i]
  {
    if |ds| > 1 {
      MinimumIsLeast(ds[1..]);
      forall i | 1 <= i < |ds| ensures Minimum(ds) <= ds[i] {
        assert ds[i] == ds[1..][i - 1];
      }
    }
  }

  function Sum(ds: seq<real>): real {
    if ds == [] then 0.0 else ds[0] + Sum(ds[1..])
  }

  function SquaredDeviations(ds: seq<real>, mean: real): (r: real)
    ensures r >= 0.0
  {
    if ds == [] then 0.0
    else
      var d := ds[0] - mean;
      assert d * d >= 0.0 by {
        if d < 0.0 { assert d * d == (-d) * (-d); }
      }
      d * d + SquaredDeviations(ds[1..], mean)
  }

  /** Population variance. */
  function Variance(ds: seq<real>): (v: real)
    requires |ds| > 0
    ensures v >= 0.0
  {
    SquaredDeviations(ds, Sum(ds) / |ds| as real) / |ds| as real
  }

  function Max0(x: real): real {
    if x > 0.0 then x else 0.0
  }

  /** Population standard deviation, through the platform's square root. */
  function Jitter(ds: seq<real>, math: FloatOps): (j: real)
    requires |ds| > 0
    ensures SignPreserving(math) ==> j >= 0.0
  {
    math.sqrt(Max0(Variance(ds)))
  }

  /** `max(0, 1 - jitter / amplitude)` guarded against a zero amplitude. */
  function Stability(amplitude: real, jitter: real, math: FloatOps): (s: real)
    ensures s >= 0.0
    ensures SignPreserving(math) && amplitude > 0.0 && jitter >= 0.0 ==> s <= 1.0
    ensures amplitude <= 0.0 ==> s == 0.0
  {
    if amplitude > 0.0 then Max0(1.0 - math.divide(jitter, amplitude)) else 0.0
  }

  /**
   * `Number(x.toFixed(4))` on exact reals: the nearest multiple of 0.0001,
   * halves rounded away from zero.
   */
  function ToFixed4(x: real): (r: real)
    ensures -0.00005 <= r - x <= 0.00005
    ensures x >= 0.0 ==> r >= 0.0
    ensures x == 0.0 ==> r == 0.0
    ensures 0.0 <= x <= 1.0 ==> r <= 1.0
    decreases if x >= 0.0 then 0 else 1
  {
    if x >= 0.0 then ((x * 10000.0 + 0.5).Floor as real) / 10000.0
    else -ToFixed4(-x)
  }

  // ---------------------------------------------------------------------------
  // Repetitions: a zero-crossing counter over vertical thumb steps

  function Sign(x: real): int {
    if x > 0.0 then 1 else if x < 0.0 then -1 else 0
  }

  function Abs(x: real): real {
    if x < 0.0 then -x else x
  }

  /** A step reverses the last non-zero step, both above the noise floor. */
  predicate Flip(prev: real, delta: real) {
    Sign(delta) != Sign(prev) && Abs(delta) > NoiseFloor && Abs(prev) > NoiseFloor
  }

  /** The last non-zero step, or 0 when there is none. */
  function LastNonZero(ds: seq<real>): real {
    if ds == [] then 0.0
    else if ds[|ds| - 1] != 0.0 then ds[|ds| - 1]
    else LastNonZero(ds[..|ds| - 1])
  }

  /** The number of steps that flip against the last non-zero step before them. */
  function RepetitionCount(ds: seq<real>): nat {
    if ds == [] then 0
    else
      var init := ds[..|ds| - 1];
      RepetitionCount(init) + (if Flip(LastNonZero(init), ds[|ds| - 1]) then 1 else 0)
  }

  /** The vertical thumb steps between consecutive samples. */
  function ThumbDeltas(s: seq<Sample>): (ds: seq<real>)
    ensures |ds| == if s == [] then 0 else |s| - 1
    ensures forall k :: 0 <= k < |ds| ==> ds[k] == s[k + 1].thumbY - s[k].thumbY
  {
    if s == [] then [] else seq(|s| - 1, k requires 0 <= k < |s| - 1 => s[k + 1].thumbY - s[k].thumbY)
  }

  /** The first step can never count: there is no earlier step to reverse. */
  lemma {:induction false} RepetitionCountBound(ds: seq<real>)
    requires |ds| >= 1
    ensures RepetitionCount(ds) <= |ds| - 1
  {
    var init := ds[..|ds| - 1];
    if |ds| == 1 {
      assert init == [];
    } else {
      RepetitionCountBound(init);
    }
  }

  /** A reversal is a step past the noise floor against a step past it the other way. */
  lemma FlipIsReversal(prev: real, delta: real)
    ensures Flip(prev, delta) <==>
              (prev > NoiseFloor && delta < -NoiseFloor) || (prev < -NoiseFloor && delta > NoiseFloor)
  {
  }

  /** The non-zero steps, in order. */
  function NonZero(ds: seq<real>): (r: seq<real>)
    ensures |r| <= |ds|
  {
    if ds == [] then []
    else NonZero(ds[..|ds| - 1]) + (if ds[|ds| - 1] != 0.0 then [ds[|ds| - 1]] else [])
  }

  /** Pauses (zero steps) are invisible to the counter: dropping them changes nothing. */
  lemma {:induction false} ZeroStepsAreInvisible(ds: seq<real>)
    ensures RepetitionCount(NonZero(ds)) == RepetitionCount(ds)
    ensures LastNonZero(NonZero(ds)) == LastNonZero(ds)
  {
    if ds != [] {
      var init := ds[..|ds| - 1];
      var d := ds[|ds| - 1];
      ZeroStepsAreInvisible(init);
      if d != 0.0 {
        var nz := NonZero(init) + [d];
        assert NonZero(ds) == nz;
        assert nz[..|nz| - 1] == NonZero(init);
        assert LastNonZero(nz) == d;
        assert RepetitionCount(nz) == RepetitionCount(NonZero(init)) + (if Flip(LastNonZero(NonZero(init)), d) then 1 else 0);
      } else {
        assert NonZero(ds) == NonZero(init);
      }
    }
  }

  /** The repetition count of a window of samples: 0 below three samples. */
  function Repetitions(s: seq<Sample>): (n: nat)
    ensures n <= if |s| < 3 then 0 else |s| - 2
  {
    if |s| < 3 then 0
    else
      RepetitionCountBound(ThumbDeltas(s));
      RepetitionCount(ThumbDeltas(s))
  }

  method CountRepetitions(samples: seq<Sample>) returns (reps: nat)
    ensures reps == Repetitions(samples)
  {
    if |samples| < 3 {
      return 0;
    }
    reps := 0;
    var prevDelta := 0.0;
    ghost var ds := ThumbDeltas(samples);
    for i := 1 to |samples|
      invariant reps == RepetitionCount(ds[..i - 1])
      invariant prevDelta == LastNonZero(ds[..i - 1])
    {
      var delta := samples[i].thumbY - samples[i - 1].thumbY;
      assert ds[..i][..i - 1] == ds[..i - 1];
      if Sign(delta) != Sign(prevDelta) && Abs(delta) > NoiseFloor && Abs(prevDelta) > NoiseFloor {
        reps := reps + 1;
      }
      if delta != 0.0 {
        prevDelta := delta;
      }
    }
    assert ds[..|samples| - 1] == ds;
  }

  // ---------------------------------------------------------------------------
  // The summary of one window

  /** The rounded features of a window of samples; all zero for an empty window. */
  function Summary(w: seq<Sample>, math: FloatOps): (f: FeatureSummary)
    ensures w == [] ==> f == ZeroFeatures()
    ensures f.repetitions == Repetitions(w)
  {
    if w == [] then ZeroFeatures() else Statistics(Distances(w), Repetitions(w), math)
  }

  /** The rounded amplitude, jitter and stability of a non-empty list of distances. */
  function Statistics(ds: seq<real>, repetitions: nat, math: FloatOps): (f: FeatureSummary)
    requires |ds| > 0
    ensures f.repetitions == repetitions
    ensures f.amplitude >= 0.0 && f.stability >= 0.0
    ensures Maximum(ds) == Minimum(ds) ==> f.amplitude == 0.0 && f.stability == 0.0
  {
    RangeNonNegative(ds);
    var amplitude := Maximum(ds) - Minimum(ds);
    var jitter := Jitter(ds, math);
    FeatureSummary(ToFixed4(amplitude), ToFixed4(jitter), ToFixed4(Stability(amplitude, jitter, math)), repetitions)
  }

  /** The distance range of a non-empty window is non-negative. */
  lemma RangeNonNegative(ds: seq<real>)
    requires |ds| > 0
    ensures Maximum(ds) - Minimum(ds) >= 0.0
  {
    MaximumIsGreatest(ds);
    MinimumIsLeast(ds);
    assert Minimum(ds) <= ds[0] <= Maximum(ds);
  }

  /**
   * Amplitude and stability are never negative, and a still hand (all
   * distances equal) has zero amplitude and zero stability.
   */
  lemma SummaryNonNegative(w: seq<Sample>, math: FloatOps)
    ensures Summary(w, math).amplitude >= 0.0 && Summary(w, math).stability >= 0.0
    ensures w != [] && Maximum(Distances(w)) == Minimum(Distances(w)) ==>
              Summary(w, math).amplitude == 0.0 && Summary(w, math).stability == 0.0
  {
  }

  /** The amplitude is the window's distance range up to the rounding of `toFixed(4)`. */
  lemma SummaryAmplitudeIsRange(w: seq<Sample>, math: FloatOps)
    requires w != []
    ensures -0.00005 <= Summary(w, math).amplitude - (Maximum(Distances(w)) - Minimum(Distances(w))) <= 0.00005
  {
  }

  /** With a square root that is never negative, jitter is non-negative and stability at most 1. */
  lemma SummaryJitterBounds(w: seq<Sample>, math: FloatOps)
    requires SignPreserving(math)
    ensures Summary(w, math).jitter >= 0.0 && Summary(w, math).stability <= 1.0
  {
    if w != [] {
      var ds := Distances(w);
      var amplitude := Maximum(ds) - Minimum(ds);
      var jitter := Jitter(ds, math);
      assert jitter >= 0.0;
      assert 0.0 <= Stability(amplitude, jitter, math) <= 1.0;
      assert Summary(w, math).jitter == ToFixed4(jitter);
      assert Summary(w, math).stability == ToFixed4(Stability(amplitude, jitter, math));
    }
  }

  // ---------------------------------------------------------------------------
  // Capturing a sample from a frame

  /** The first hand that has any landmarks (the source's `find`). */
  function FirstWithLandmarks(hands: seq<Hand>): (h: Option<Hand>)
    ensures h.None? <==> forall i :: 0 <= i < |hands| ==> |hands[i].landmarks| == 0
    ensures h.Some? ==>
              exists i :: 0 <= i < |hands| && hands[i] == h.value && |hands[i].landmarks| > 0 &&
                          forall j :: 0 <= j < i ==> |hands[j].landmarks| == 0
  {
    if hands == [] then None
    else if |hands[0].landmarks| > 0 then Some(hands[0])
    else
      FirstWithLandmarks(hands[1..])
  }

  /** The hand's wrist (index 0) and thumb tip (index 4), when both are there. */
  function Anchors(h: Hand): Option<(Landmark, Landmark)> {
    if |h.landmarks| <= 4 || h.landmarks[4].None? || h.landmarks[0].None? then None
    else Some((h.landmarks[0].value, h.landmarks[4].value))
  }

  /** The sample a frame contributes, if any. */
  function SampleFrom(hands: seq<Hand>, timestamp: real, math: FloatOps): (s: Option<Sample>)
    ensures s.Some? <==> FirstWithLandmarks(hands).Some? && Anchors(FirstWithLandmarks(hands).value).Some?
    ensures s.Some? ==>
              var (wrist, thumb) := Anchors(FirstWithLandmarks(hands).value).value;
              s.value.timestamp == timestamp && s.value.thumbY == thumb.y && s.value.wristY == wrist.y &&
              s.value.distance == math.hypot(thumb.x - wrist.x, thumb.y - wrist.y, thumb.z.GetOr(0.0) - wrist.z.GetOr(0.0))
  {
    var hand := FirstWithLandmarks(hands);
    if hand.None? then None
    else
      match Anchors(hand.value)
      case None => None
      case Some((wrist, thumb)) =>
        var distance := math.hypot(thumb.x - wrist.x, thumb.y - wrist.y, thumb.z.GetOr(0.0) - wrist.z.GetOr(0.0));
        Some(Sample(timestamp, distance, thumb.y, wrist.y))
  }

  // ---------------------------------------------------------------------------
  // The accumulator

  /** The start of the summarised window: the one given, else the newest sample's time minus the window. */
  function WindowStart(windowStart: Option<real>, samples: seq<Sample>, windowMs: real): real
    requires samples != []
  {
    windowStart.GetOr(samples[|samples| - 1].timestamp - windowMs)
  }

  /**
   * Push-then-prune: appending `x` and dropping the samples older than the
   * window before it removes exactly a leading run of old samples, keeps `x`
   * when the window is not negative, and keeps an ordered buffer ordered and
   * inside the window.
   */
  lemma PushThenPrune(s: seq<Sample>, x: Sample, windowMs: real)
    ensures var t := s + [x];
            var r := DropBefore(t, x.timestamp - windowMs);
            && |r| <= |t|
            && r == t[|t| - |r|..]
            && (forall i :: 0 <= i < |t| - |r| ==> t[i].timestamp < x.timestamp - windowMs)
            && (r != [] ==> r[0].timestamp >= x.timestamp - windowMs)
            && (windowMs >= 0.0 ==> r != [] && r[|r| - 1] == x)
            && (Sorted(s) && (s == [] || s[|s| - 1].timestamp <= x.timestamp) ==> WindowBounded(r, x.timestamp - windowMs))
  {
    DropBeforeDropsOldPrefix(s + [x], x.timestamp - windowMs);
    if windowMs >= 0.0 {
      CaptureKeepsNewest(s, x, windowMs);
    }
    if Sorted(s) && (s == [] || s[|s| - 1].timestamp <= x.timestamp) {
      CaptureKeepsWindowBounded(s, x, windowMs);
    }
  }

  /**
   * The buffer after capturing a frame: unchanged without a sample; otherwise
   * the sample is appended and exactly the leading samples older than the
   * window before it are dropped. The new sample survives whenever the window
   * is not negative, and a time-ordered buffer stays ordered and inside the window.
   */
  function Captured(samples: seq<Sample>, hands: seq<Hand>, timestamp: real, windowMs: real, math: FloatOps): (r: seq<Sample>)
    ensures SampleFrom(hands, timestamp, math).None? ==> r == samples
    ensures SampleFrom(hands, timestamp, math).Some? ==>
              var t := samples + [SampleFrom(hands, timestamp, math).value];
              && |r| <= |t|
              && r == t[|t| - |r|..]
              && (forall i :: 0 <= i < |t| - |r| ==> t[i].timestamp < timestamp - windowMs)
              && (r != [] ==> r[0].timestamp >= timestamp - windowMs)
              && (windowMs >= 0.0 ==> r != [] && r[|r| - 1] == SampleFrom(hands, timestamp, math).value)
              && (Sorted(samples) && (samples == [] || samples[|samples| - 1].timestamp <= timestamp) ==>
                    WindowBounded(r, timestamp - windowMs))
  {
    var sample := SampleFrom(hands, timestamp, math);
    if sample.None? then samples
    else
      PushThenPrune(samples, sample.value, windowMs);
      DropBefore(samples + [sample.value], timestamp - windowMs)
  }

  class FeatureAccumulator {
    var windowMs: real
    var samples: seq<Sample>

    constructor(windowMs: real)
      ensures this.windowMs == windowMs && samples == []
    {
      this.windowMs := windowMs;
      samples := [];
    }

    method SetWindow(windowMs: real)
      modifies this
      ensures this.windowMs == windowMs && samples == old(samples)
    {
      this.windowMs := windowMs;
    }

    method Capture(hands: seq<Hand>, timestamp: real, math: FloatOps)
      modifies this
      ensures windowMs == old(windowMs)
      ensures samples == Captured(old(samples), hands, timestamp, windowMs, math)
    {
      var sample := SampleFrom(hands, timestamp, math);
      if sample.None? {
        return;
      }
      samples := samples + [sample.value];
      Prune(timestamp - windowMs);
    }

    method Prune(minTimestamp: real)
      modifies this
      ensures windowMs == old(windowMs)
      ensures samples == DropBefore(old(samples), minTimestamp)
    {
      if |samples| == 0 {
        return;
      }
      while |samples| > 0 && samples[0].timestamp < minTimestamp
        invariant DropBefore(samples, minTimestamp) == DropBefore(old(samples), minTimestamp)
        invariant windowMs == old(windowMs)
        decreases |samples|
      {
        samples := samples[1..];
      }
    }

    method Summarize(windowStart: Option<real>, math: FloatOps) returns (f: FeatureSummary)
      modifies this
      ensures windowMs == old(windowMs)
      ensures old(samples) == [] ==> f == ZeroFeatures() && samples == []
      ensures old(samples) != [] ==>
                samples == DropBefore(old(samples), WindowStart(windowStart, old(samples), windowMs))
      ensures old(samples) != [] ==>
                f == Summary(InWindow(old(samples), WindowStart(windowStart, old(samples), windowMs)), math)
      ensures windowStart.Some? ==>
                samples == DropBefore(old(samples), windowStart.value) &&
                f == Summary(InWindow(old(samples), windowStart.value), math)
    {
      if |samples| == 0 {
        return ZeroFeatures();
      }
      var start := windowStart.GetOr(samples[|samples| - 1].timestamp - windowMs);
      assert start == WindowStart(windowStart, samples, windowMs);
      InWindowIgnoresPruned(samples, start);
      ghost var windowedBefore := InWindow(samples, start);
      assert windowedBefore == InWindow(old(samples), start);
      Prune(start);
      var windowed := InWindow(samples, start);
      assert windowed == InWindow(old(samples), start);
      f := SummarizeWindow(windowed, math);
    }
  }

  /** The statistics step of `summarize`, on the samples already filtered to the window. */
  method SummarizeWindow(windowed: seq<Sample>, math: FloatOps) returns (f: FeatureSummary)
    ensures f == Summary(windowed, math)
  {
    if |windowed| == 0 {
      return ZeroFeatures();
    }
    var distances := Distances(windowed);
    var repetitions := CountRepetitions(windowed);
    f := Statistics(distances, repetitions, math);
  }

  /** Appending a sample no older than the newest keeps the buffer time-ordered. */
  lemma AppendKeepsSorted(s: seq<Sample>, x: Sample)
    requires Sorted(s)
    requires s == [] || s[|s| - 1].timestamp <= x.timestamp
    ensures Sorted(s + [x])
  {
    var t := s + [x];
    forall i | 0 < i < |t| ensures t[i - 1].timestamp <= t[i].timestamp {
      if i < |s| {
        assert t[i - 1] == s[i - 1] && t[i] == s[i];
      }
    }
  }

  /**
   * Capturing on a time-ordered buffer with a non-decreasing timestamp keeps
   * the buffer ordered and holds nothing older than the window before the newest sample.
   */
  lemma CaptureKeepsWindowBounded(s: seq<Sample>, x: Sample, windowMs: real)
    requires Sorted(s)
    requires s == [] || s[|s| - 1].timestamp <= x.timestamp
    ensures WindowBounded(DropBefore(s + [x], x.timestamp - windowMs), x.timestamp - windowMs)
  {
    AppendKeepsSorted(s, x);
    PrunedSortedIsInWindow(s + [x], x.timestamp - windowMs);
  }
}

=== FILE: gesture.dfy ===
/**
 * The gesture normaliser of src/gesture.js: a first-match-wins classifier that
 * turns a recognizer category (name and score) into a semantic label with the
 * reason it was accepted or rejected.
 */
module Gesture {
  import opened Wrappers

  datatype Label = Up | Down | Neutral

  /**
   * Why an event has its label. The normaliser produces the first five;
   * `NoGesture` is produced by the application when no hand carries a
   * gesture, and `Init` is the reason of the application's initial frame.
   */
  datatype Reason = Accepted | BelowThreshold | MissingName | DenyList | NotMapped | NoGesture | Init

  /** A recognizer category; a field the recognizer left out is `None`. */
  datatype Category = Category(categoryName: Option<string>, score: Option<real>)

  /** The caller's options; an option left out is `None`. */
  datatype Options = Options(
    minScore: Option<real>,
    minScoreByCategory: Option<map<string, real>>,
    denyList: Option<seq<string>>)

  /** `minScore` is present exactly on `BelowThreshold` events. */
  datatype NormalizedEvent = NormalizedEvent(
    gesture: Label,
    name: Option<string>,
    score: real,
    accepted: bool,
    reason: Reason,
    minScore: Option<real>)

  const NameToLabel: map<string, Label> := map["Thumb_Up" := Up, "Thumb_Down" := Down]

  const BaseDeny: set<string> :=
    {"None", "Closed_Fist", "Open_Palm", "Victory", "Thumb_Up_Left", "Thumb_Down_Left"}

  const DefaultMinScore: real := 0.6

  const DefaultMinScoreByCategory: map<string, real> := map["Thumb_Up" := 0.65, "Thumb_Down" := 0.65]

  /** JavaScript truthiness of an optional string: present and not empty. */
  predicate Present(name: Option<string>) {
    name.Some? && name.value != ""
  }

  function MapCategoryToLabel(name: Option<string>): (l: Label)
    ensures l == Up <==> name == Some("Thumb_Up")
    ensures l == Down <==> name == Some("Thumb_Down")
  {
    if !Present(name) then Neutral
    else if name.value in NameToLabel then NameToLabel[name.value]
    else Neutral
  }

  /**
   * The first category of the first hand. A missing list of lists is modelled
   * as an empty one, which the source treats identically.
   */
  function ExtractTopCategory(gestures: seq<seq<Option<Category>>>): (c: Option<Category>)
    ensures (|gestures| == 0 || |gestures[0]| == 0) ==> c.None?
    ensures |gestures| > 0 && |gestures[0]| > 0 ==> c == gestures[0][0]
  {
    if |gestures| == 0 || |gestures[0]| == 0 then None else gestures[0][0]
  }

  function NameOf(category: Option<Category>): Option<string> {
    if category.Some? then category.value.categoryName else None
  }

  function ScoreOf(category: Option<Category>): real {
    if category.Some? && category.value.score.Some? then category.value.score.value else 0.0
  }

  /** The names rejected outright: the caller's deny list plus the built-in set. */
  function DenySet(options: Options): (deny: set<string>)
    ensures BaseDeny <= deny
    ensures options.denyList.Some? ==> forall i :: 0 <= i < |options.denyList.value| ==> options.denyList.value[i] in deny
    ensures forall n :: n in deny ==> n in BaseDeny || (options.denyList.Some? && n in options.denyList.value)
  {
    (if options.denyList.Some? then set n | n in options.denyList.value else {}) + BaseDeny
  }

  /**
   * The threshold that applies to `name`: the caller's per-category value,
   * else the built-in per-category value, else the caller's global value,
   * else 0.6.
   */
  function EffectiveMinScore(name: string, options: Options): (t: real)
    ensures options.minScoreByCategory.Some? && name in options.minScoreByCategory.value ==>
              t == options.minScoreByCategory.value[name]
    ensures (options.minScoreByCategory.None? || name !in options.minScoreByCategory.value) &&
            name in DefaultMinScoreByCategory ==>
              t == DefaultMinScoreByCategory[name]
    ensures (options.minScoreByCategory.None? || name !in options.minScoreByCategory.value) &&
            name !in DefaultMinScoreByCategory ==>
              t == options.minScore.GetOr(DefaultMinScore)
  {
    var byCategory := DefaultMinScoreByCategory + options.minScoreByCategory.GetOr(map[]);
    if name in byCategory then byCategory[name] else options.minScore.GetOr(DefaultMinScore)
  }

  function NormalizeGesture(category: Option<Category>, options: Options): (e: NormalizedEvent)
    ensures e.score == ScoreOf(category)
    ensures e.reason in {Accepted, BelowThreshold, MissingName, DenyList, NotMapped}
    ensures e.reason == MissingName <==> !Present(NameOf(category))
    ensures e.reason == MissingName ==> e.name.None?
    ensures e.reason != MissingName ==> e.name == NameOf(category)
    ensures e.reason == DenyList <==>
              Present(NameOf(category)) && NameOf(category).value in DenySet(options)
    ensures e.reason == BelowThreshold <==>
              Present(NameOf(category)) && NameOf(category).value !in DenySet(options) &&
              ScoreOf(category) < EffectiveMinScore(NameOf(category).value, options)
    ensures e.reason == NotMapped <==>
              Present(NameOf(category)) && NameOf(category).value !in DenySet(options) &&
              ScoreOf(category) >= EffectiveMinScore(NameOf(category).value, options) &&
              NameOf(category).value !in NameToLabel
    ensures e.minScore.Some? <==> e.reason == BelowThreshold
    ensures e.minScore.Some? ==> e.minScore.value == EffectiveMinScore(NameOf(category).value, options)
    ensures e.accepted <==> e.reason == Accepted
    ensures e.accepted <==> e.gesture != Neutral
    ensures e.accepted ==> e.gesture == MapCategoryToLabel(NameOf(category))
  {
    var name := NameOf(category);
    var score := ScoreOf(category);
    if !Present(name) then
      NormalizedEvent(Neutral, None, score, false, MissingName, None)
    else if name.value in DenySet(options) then
      NormalizedEvent(Neutral, name, score, false, DenyList, None)
    else
      var minScore := EffectiveMinScore(name.value, options);
      if score < minScore then
        NormalizedEvent(Neutral, name, score, false, BelowThreshold, Some(minScore))
      else if name.value !in NameToLabel then
        NormalizedEvent(Neutral, name, score, false, NotMapped, None)
      else
        NormalizedEvent(NameToLabel[name.value], name, score, true, Accepted, None)
  }

  /** Raising the score of an accepted category never makes it rejected. */
  lemma AcceptanceMonotoneInScore(name: string, s: real, s': real, options: Options)
    requires NormalizeGesture(Some(Category(Some(name), Some(s))), options).accepted
    requires s <= s'
    ensures NormalizeGesture(Some(Category(Some(name), Some(s'))), options) ==
            NormalizeGesture(Some(Category(Some(name), Some(s))), options).(score := s')
  {
  }

  /**
   * The threshold is inclusive: a name that is not denied, scored exactly at
   * its effective threshold, is never below threshold (accepted when it maps
   * to a thumb label, not mapped otherwise), and any lower score is.
   */
  lemma ThresholdIsInclusive(name: string, options: Options, lower: real)
    requires name != "" && name !in DenySet(options)
    requires lower < EffectiveMinScore(name, options)
    ensures var atThreshold := NormalizeGesture(Some(Category(Some(name), Some(EffectiveMinScore(name, options)))), options);
            && atThreshold.reason != BelowThreshold
            && (atThreshold.reason == Accepted <==> name in NameToLabel)
    ensures NormalizeGesture(Some(Category(Some(name), Some(lower))), options).reason == BelowThreshold
  {
  }

  /** A caller's per-category threshold overrides its global one. */
  lemma CategoryOverrideBeatsGlobal(name: string, s: real, byCategory: map<string, real>, global: real)
    requires name in byCategory && name !in BaseDeny && name != ""
    requires byCategory[name] <= s < global
    ensures NormalizeGesture(Some(Category(Some(name), Some(s))), Options(Some(global), Some(byCategory), None)).reason
            != BelowThreshold
  {
  }
}

=== FILE: wrappers.dfy ===
/** Optional values: `None` stands for JavaScript's `null` / `undefined`. */
module Wrappers {

  datatype Option<+T> = None | Some(value: T) {

    /** The value, or `default` when absent (JavaScript's `??`). */
    function GetOr(default: T): T {
      match this
      case Some(v) => v
      case None => default
    }
  }
}
